=== FILE: README.md ===
# FST-CFC admissions platform — a Dafny model of its decision logic

This project models the state machines and decision rules of the FST-CFC
microservices, and proves properties about them. FST-CFC is an admissions and enrollment platform. The model
covers the following:

- **Application lifecycle** (application service). The status table, the transition check, and the
  create/transition handler. The handler writes a decision row and a history row for each transition.
- **Formation (program) lifecycle** (program service). Create, update, publish, archive, the
  registration flags, candidate eligibility, and the sweep that closes expired registrations.
- **Institution service**. The formation and registration-period models, the formation and
  period controllers, and the `registrations:close-expired` console command.
- **Scheduler job**. `CloseRegistrationsJob.run`, with defaults, dry run, error accumulation and counters.
- **Notification service**. Idempotent creation, the send step, the retry schedule and dead lettering.
- **Reporting domain**. Enrollment statistics and rates, user access rules, query builders, the
  in-memory repository filters, and the permission-gated reporting service.
- **Document service middleware**. The bearer-header check and `RequireRole`.
- **Web app pagination bar**. Which page numbers it shows, and when prev/next are disabled.

Every operation is a pure function over immutable datatypes, except three methods:
`ProgramFormation.CloseExpiredRegistrations` and `CloseRegistrationsJob.Run` are loops, and
`CloseRegistrationsJob.RunProgram` makes one program's three calls in order. The console sweep
`CloseExpiredRegistrations.CloseAll` is a recursive function. Stores are maps or sequences, and
the logs are append-only sequences. The clock is an integer `now` parameter. Each Go database
write, each HTTP call of the scheduler, and each template lookup, mailer send and JWT verification
is an outcome parameter or an oracle function. Laravel and Mongo writes are assumed to succeed
(see "Left out"). Errors are `Result` failures that carry the HTTP status or the message the source answers with.

Files, one module each:

| file | module | models |
|---|---|---|
| wrappers.dfy | `Wrappers` | `Option`, `Result` |
| subsequence.dfy | `Subsequences` | order-preserving selection, shared by every filter |
| transition_table.dfy | `TransitionTable` | an adjacency-table lifecycle, generic in the state type |
| application_model.dfy | `ApplicationModel` | application statuses and `ValidTransitions` |
| application_handler.dfy | `ApplicationHandler` | `Create`, `Transition`, decisions, history |
| program_formation.dfy | `ProgramFormation` | the Go formation handler |
| institution_models.dfy | `InstitutionModels` | `Formation` and `RegistrationPeriod` Eloquent models |
| formation_controller.dfy | `FormationController` | Laravel formation store/update/publish/archive |
| registration_period_controller.dfy | `RegistrationPeriodController` | period upsert, open/close, status, scheduler query |
| close_expired_registrations.dfy | `CloseExpiredRegistrations` | the console sweep |
| scheduler_job.dfy | `CloseRegistrationsJob` | the scheduler's close-registrations run |
| notifications.dfy | `Notifications` | create, processSend, retry delays, JavaScript `trim` |
| reporting_stats.dfy | `ReportingStats` | `EnrollmentStats`, `ProgramStats` |
| reporting_access.dfy | `ReportingAccess` | `UserContext` |
| reporting_query.dfy | `ReportingQuery` | `ReportQuery` |
| reporting_repository.dfy | `ReportingRepository` | `InMemoryReportingRepository` |
| reporting_service.dfy | `ReportingService` | `ReportingService` |
| auth_middleware.dfy | `AuthMiddleware` | `AuthMiddleware`, `RequireRole` |
| pagination.dfy | `Pagination` | `getVisible`, prev/next |

### Write failures the handlers ignore

- **Decision and history writes.** The Go transition handler ignores the errors of its decision
  and history writes (application.go:147, :157) and still answers success. The model does the same
  through `Writes.decisionOk` and `Writes.historyOk`.
  - `ApplicationHandler.TransitionPreservesTrail` proves that every application's history replays
    along legal edges to its current status, but only while every history write succeeds.
  - `ApplicationHandler.LostHistoryWriteBreaksTrail` exhibits a single failed write after which
    the history no longer reaches the status.
- **Transition check.** A request may name any string as the target status. Go converts it to
  `ApplicationStatus` unchecked, so an unknown name simply has no table entry and no edge.

## Model

Some source predicates have no row of their own. Their behaviour is stated by the "…Iff" or
agreement lemma rows, which stand for them:
- `ReportingAccess.CanAccessInstitution`, `CanAccessProgram` and `IsSuperAdmin`: `ReportingAccess.AccessByRole`.
- `InstitutionModels.IsCurrentlyOpen`: `CurrentlyOpenIff`. `HasCapacity`: `HasCapacityIff`.
- `IsRegistrationOpen`: `RegistrationOpenAgreesWithPeriod`.
- `ProgramFormation.Eligible`: `ProgramFormation.EligibleIff`.
- `Pagination.PrevDisabled` and `NextDisabled`: `Pagination.ButtonsStayInRange`.
- `TransitionTable.Lookup`: `TransitionTable.CanTransitionTo`. `Replay`: `TransitionTable.ReplaySnoc`.

| member | source | states |
|---|---|---|
| TransitionTable.Contains | services/application-service/internal/model/application.go:35-40 | the scan over an allowed list finds `t` exactly when `t` occurs in it |
| TransitionTable.CanTransitionTo | services/application-service/internal/model/application.go:30-41 | a move is allowed iff the source has a table entry and the target is in it; no entry means no move |
| TransitionTable.ReplaySnoc | services/application-service/internal/model/application.go:30-41 | replaying a trail extended by one edge is replaying the trail and then checking that one edge |
| ApplicationModel.NoEntryNoTransition | services/application-service/internal/model/application.go:30-34 | ACCEPTED, REJECTED and every unknown string have no outgoing transition |
| ApplicationModel.SinksHaveNoSuccessors | services/application-service/internal/model/application.go:22-27 | ACCEPTED and REJECTED are sinks |
| ApplicationModel.Successors | services/application-service/internal/model/application.go:22-27 | the exact successor set of DRAFT, SUBMITTED, UNDER_REVIEW and WAITLISTED, as iffs |
| ApplicationModel.EdgeRaisesRank | services/application-service/internal/model/application.go:22-27 | every legal edge moves strictly forward: no self-loop, no edge into DRAFT |
| ApplicationModel.WalkRaisesRank | services/application-service/internal/model/application.go:22-27 | a legal walk of k edges ends at least k ranks higher |
| ApplicationModel.WalksAreShort | services/application-service/internal/model/application.go:22-27 | the graph is acyclic: a legal walk has at most 4 edges and never returns to its start |
| ApplicationModel.EveryStatusReachable | services/application-service/internal/model/application.go:22-27 | each of the six statuses is reached from DRAFT by a legal walk |
| ApplicationHandler.Create | services/application-service/internal/handler/application.go:60-91 | succeeds iff the required fields bind and the insert succeeds; the new application is DRAFT whatever the input and carries the request's candidate, program, name, e-mail, phone and notes; no other application and no decision or history row changes; a failure changes nothing |
| ApplicationHandler.Transition | services/application-service/internal/handler/application.go:94-160 | error cases and their order (400, 404, 409 with current/target/allowed, 500); each failure writes nothing; success changes only the status; one decision exactly for decision-worthy targets whose write succeeds, carrying the actor and comment; one history row exactly when its write succeeds; both tables append-only |
| ApplicationHandler.TrailOfAbsent | services/application-service/internal/handler/application.go:151-157 | an application without history rows has an empty trail |
| ApplicationHandler.TrailOfSnoc | services/application-service/internal/handler/application.go:151-157 | appending a history row extends only its own application's trail |
| ApplicationHandler.CreatePreservesWellFormed | services/application-service/internal/handler/application.go:75-88 | creation keeps every history row a legal edge and every decision decision-worthy |
| ApplicationHandler.TransitionPreservesWellFormed | services/application-service/internal/handler/application.go:120-157 | whatever the write outcomes, no transition records an illegal edge or a decision for a non-decision status |
| ApplicationHandler.CreatePreservesTrail | services/application-service/internal/handler/application.go:75-88 | a new application's empty trail replays to its initial status |
| ApplicationHandler.TransitionPreservesTrail | services/application-service/internal/handler/application.go:120-157 | while history writes succeed, each application's history folds along legal edges to its current status |
| ApplicationHandler.LostHistoryWriteBreaksTrail | services/application-service/internal/handler/application.go:157 | an ignored history-write failure leaves a DRAFT→SUBMITTED application whose trail no longer reaches its status |
| ApplicationHandler.DecisionOnlyForDecisionTargets | services/application-service/internal/handler/application.go:139-157 | DRAFT→SUBMITTED writes no decision and one history row; UNDER_REVIEW→ACCEPTED writes exactly the decision (actor, ACCEPTED, comment) |
| ApplicationHandler.SubmittedCannotJumpToAccepted | services/application-service/internal/handler/application.go:120-128 | SUBMITTED→ACCEPTED is refused with allowed = [UNDER_REVIEW] and the store unchanged |
| ProgramFormation.Create | services/program-service/internal/handler/program.go:71-98 | succeeds iff the required fields are non-empty and the insert succeeds; the formation is BROUILLON, closed and without dates, and carries the request's establishment, coordinator, title and description; failure changes nothing |
| ProgramFormation.Update | services/program-service/internal/handler/program.go:101-137 | only the title and description provided change; every other field is kept |
| ProgramFormation.Publish | services/program-service/internal/handler/program.go:140-168 | succeeds only from BROUILLON and yields PUBLIEE; any other state is a conflict reporting it, with nothing changed |
| ProgramFormation.Archive | services/program-service/internal/handler/program.go:171-200 | succeeds only from PUBLIEE, yields ARCHIVEE and closes registrations; otherwise a conflict with no change |
| ProgramFormation.UpdateRegistrations | services/program-service/internal/handler/program.go:204-258 | a non-PUBLIEE formation is a conflict even before the body is read; success sets both dates and the open flag, true when absent |
| ProgramFormation.CloseRegistrations | services/program-service/internal/handler/program.go:261-281 | closes registrations in every state and changes nothing else |
| ProgramFormation.HandlePreservesLifecycle | services/program-service/internal/handler/program.go:71-281 | no handler opens registrations outside PUBLIEE, and none moves a formation back along BROUILLON→PUBLIEE→ARCHIVEE |
| ProgramFormation.EligibleIff | services/program-service/internal/handler/program.go:297-304 | eligible iff PUBLIEE, registrations open, and now within the dates, both bounds inclusive, an absent date putting no bound |
| ProgramFormation.CheckEligibility | services/program-service/internal/handler/program.go:284-313 | 404 exactly for an unknown id; otherwise answers the eligibility predicate |
| ProgramFormation.NotEligibleWhenArchivedOrExpired | services/program-service/internal/handler/program.go:297-304 | an archived formation, or one whose window has closed, accepts nobody |
| ProgramFormation.ChangedRowsStep | services/program-service/internal/handler/program.go:342-349 | appending one row adds one changed index exactly when that row differs |
| ProgramFormation.CloseExpiredRegistrations | services/program-service/internal/handler/program.go:333-355 | closes exactly the open formations whose closing date is strictly past and whose update succeeds; the count is the number of rows changed; a failed fetch changes nothing |
| InstitutionModels.Statuses | services/institution-service/app/Models/Formation.php:75-82 | the status list is exactly draft, published, archived |
| InstitutionModels.ScopePublished | services/institution-service/app/Models/Formation.php:53-56 | the published scope keeps, in order, every formation whose status is published, each as often as it occurs, and no other |
| InstitutionModels.ScopePublishedIdempotent | services/institution-service/app/Models/Formation.php:53-56 | applying the scope to its own result changes nothing |
| InstitutionModels.IncrementApplications | services/institution-service/app/Models/RegistrationPeriod.php:59-62 | the counter rises by exactly one and nothing else changes |
| InstitutionModels.CurrentlyOpenIff | services/institution-service/app/Models/RegistrationPeriod.php:40-49 | closed when the flag is off; otherwise open iff start ≤ now ≤ end |
| InstitutionModels.HasCapacityIff | services/institution-service/app/Models/RegistrationPeriod.php:51-57 | always room without a limit; otherwise room iff current < max |
| InstitutionModels.RegistrationOpenAgreesWithPeriod | services/institution-service/app/Models/Formation.php:63-73 | no period means closed; otherwise the formation's test agrees with the period's |
| InstitutionModels.IncrementIgnoresCapacity | services/institution-service/app/Models/RegistrationPeriod.php:59-62 | incrementing a full period pushes it past its limit: capacity is never checked |
| FormationController.Validated | services/institution-service/app/Http/Controllers/FormationController.php:99-110 | only the validated keys of the body survive, with their values |
| FormationController.Store | services/institution-service/app/Http/Controllers/FormationController.php:97-121 | the new formation is draft whatever the body says; it keeps the validated fields and nothing but them, the slug and the status; its slug is the slug of the request's title |
| FormationController.Update | services/institution-service/app/Http/Controllers/FormationController.php:140-164 | the status never changes; the validated fields the body sends are written and every attribute it does not send is kept; a title brings the slug of that title, and without one the slug is kept; no other key appears |
| FormationController.Publish | services/institution-service/app/Http/Controllers/FormationController.php:170-184 | an archived formation is refused (422) unchanged; any other becomes published, with only the status touched |
| FormationController.Archive | services/institution-service/app/Http/Controllers/FormationController.php:190-198 | any formation becomes archived, with only the status touched |
| FormationController.PublishIdempotent | services/institution-service/app/Http/Controllers/FormationController.php:178 | publishing a second time changes nothing |
| FormationController.ArchivedIsFinal | services/institution-service/app/Http/Controllers/FormationController.php:172-176 | once archived, publish is refused and archive is a no-op |
| RegistrationPeriodController.FindPeriod | services/institution-service/app/Models/Formation.php:48-51 | a formation's period is the first row naming it, and none when no row does |
| RegistrationPeriodController.StorePeriod | services/institution-service/app/Http/Controllers/RegistrationPeriodController.php:36-61 | validation (start ≥ today, end > start, limit ≥ 1); flags default to true; the counter is reset to 0; an omitted limit or note keeps the stored value and is null on a new row; an existing period is replaced in place, otherwise one row is appended; other formations' periods are untouched |
| RegistrationPeriodController.FindPeriodAfterUpdate | services/institution-service/app/Http/Controllers/RegistrationPeriodController.php:52-55 | rewriting a formation's own period row moves no lookup |
| RegistrationPeriodController.FindPeriodSame | services/institution-service/app/Http/Controllers/RegistrationPeriodController.php:52-55 | rows naming the same formations index by index give the same lookups |
| RegistrationPeriodController.FindPeriodAfterAppend | services/institution-service/app/Http/Controllers/RegistrationPeriodController.php:52-55 | appending a first period for a formation leaves every other lookup alone |
| RegistrationPeriodController.FindPeriodAppend | services/institution-service/app/Http/Controllers/RegistrationPeriodController.php:52-55 | where an appended row is found: only when no earlier row names its formation |
| RegistrationPeriodController.StoreKeepsOnePeriodEach | services/institution-service/app/Http/Controllers/RegistrationPeriodController.php:52-55 | the upsert never gives a formation a second period |
| RegistrationPeriodController.SetOpen | services/institution-service/app/Http/Controllers/RegistrationPeriodController.php:98-136 | the flag-setting step shared by open and close: only the flag of the formation's own period changes; no period (or no formation) is a 404 with no effect |
| RegistrationPeriodController.Open | services/institution-service/app/Http/Controllers/RegistrationPeriodController.php:98-114 | the period becomes open and nothing else of it changes; other periods, the formations and the row count are untouched; no period is a 404 with no effect |
| RegistrationPeriodController.Close | services/institution-service/app/Http/Controllers/RegistrationPeriodController.php:120-136 | the period becomes closed and nothing else of it changes; other periods, the formations and the row count are untouched; no period is a 404 with no effect |
| RegistrationPeriodController.CloseViaScheduler | services/institution-service/app/Http/Controllers/RegistrationPeriodController.php:214-242 | succeeds iff the formation has a period; then that period is closed, others untouched, and the reply names the formation and `closedAt` (now by default); otherwise a 404 with no effect |
| RegistrationPeriodController.OpenCloseOverride | services/institution-service/app/Http/Controllers/RegistrationPeriodController.php:108 | the last of open and close decides the flag |
| RegistrationPeriodController.IncrementApplicationsFor | services/institution-service/app/Http/Controllers/RegistrationPeriodController.php:166-182 | the counter of the formation's period rises by one and nothing else of it changes; other periods, the formations and the row count are untouched; no period is a 404 with no effect |
| RegistrationPeriodController.CheckStatus | services/institution-service/app/Http/Controllers/RegistrationPeriodController.php:141-161 | no period reports closed and without capacity; otherwise the period's own tests |
| RegistrationPeriodController.ClosableRows | services/institution-service/app/Http/Controllers/RegistrationPeriodController.php:193-195 | keeps, in order, every period that is open, auto-closing and ended strictly before the bound, each as often as it occurs, and no other |
| RegistrationPeriodController.ApplyLimit | services/institution-service/app/Http/Controllers/RegistrationPeriodController.php:197 | a prefix of at most `limit` rows, all rows when the limit is negative or large enough |
| RegistrationPeriodController.RegistrationsToClose | services/institution-service/app/Http/Controllers/RegistrationPeriodController.php:188-209 | the first `limit` (default 100, negative ignored) closable periods before `before` (default now), each answered with its formation, that formation's establishment id and its end date; a 500 exactly when a selected period's formation does not load |
| RegistrationPeriodController.ScheduledPeriodsAreClosable | services/institution-service/app/Http/Controllers/RegistrationPeriodController.php:193-205 | every program handed to the scheduler names a stored period that is open, auto-closing and ended before the reference date, with that period's end date |
| CloseExpiredRegistrations.CloseAll | services/institution-service/app/Console/Commands/CloseExpiredRegistrations.php:30-39 | closes exactly the open, auto-closing, expired periods and leaves every other row as it was; none remains closable; the count is the number matched |
| CloseExpiredRegistrations.Handle | services/institution-service/app/Console/Commands/CloseExpiredRegistrations.php:26-54 | always exits with SUCCESS; every open, auto-closing period whose end lies before now is closed, and the reported count is the number of periods the query matched; every other period, already-closed ones included, is untouched |
| CloseExpiredRegistrations.SweepIdempotent | services/institution-service/app/Console/Commands/CloseExpiredRegistrations.php:30-39 | a second sweep at the same instant closes nothing |
| CloseExpiredRegistrations.NoneClosableCloseAll | services/institution-service/app/Console/Commands/CloseExpiredRegistrations.php:30-39 | when nothing is closable the sweep changes nothing and counts zero |
| CloseExpiredRegistrations.SweepEmptiesSchedulerQuery | services/institution-service/app/Http/Controllers/RegistrationPeriodController.php:193-195 | after the sweep, the scheduler's selection at the same instant is empty |
| CloseRegistrationsJob.ProgramErrors | services/scheduler-job/src/jobs/CloseRegistrationsJob.ts:60-91 | one program adds at most three errors, and none exactly when its three calls succeed |
| CloseRegistrationsJob.Run | services/scheduler-job/src/jobs/CloseRegistrationsJob.ts:31-106 | defaults (now, 100, not dry); a failed fetch gives 0/0/[] and one error; one detail per program in fetch order; a dry run makes no call; a real run makes the three calls for every program, sums the expired applications of the successful calls and collects one error per failed call |
| CloseRegistrationsJob.DryRunDetails | services/scheduler-job/src/jobs/CloseRegistrationsJob.ts:56-59 | a dry run lists each program without an auto-expire result |
| CloseRegistrationsJob.RunProgram | services/scheduler-job/src/jobs/CloseRegistrationsJob.ts:59-94 | the three calls in order, each failure adding its message, the next call still made |
| CloseRegistrationsJob.ErrorsBounded | services/scheduler-job/src/jobs/CloseRegistrationsJob.ts:60-91 | a real run reports at most three errors per program |
| CloseRegistrationsJob.NoErrorsIffAllSucceed | services/scheduler-job/src/jobs/CloseRegistrationsJob.ts:60-91 | no error exactly when every call of every program succeeds |
| CloseRegistrationsJob.CallsPerProgram | services/scheduler-job/src/jobs/CloseRegistrationsJob.ts:56-95 | exactly three calls per program, program k's at positions 3k..3k+2 in the order auto-expire, close, notify |
| Notifications.RetryDelay | services/notification-service/src/modules/notifications/notifications.service.ts:13-16 | the delay table indexed at min(n-1, 4); undefined below 1; six hours from the fifth attempt on |
| Notifications.NextAttemptAt | services/notification-service/src/modules/notifications/notifications.service.ts:13-17 | the next attempt is now plus the retry delay of that attempt, in milliseconds, so between 30 seconds and 6 hours after now; undefined below one attempt |
| Notifications.RetryDelayMonotone | services/notification-service/src/modules/notifications/notifications.service.ts:14-15 | delays never shrink as attempts accumulate |
| Notifications.SkipLeading | services/notification-service/src/modules/notifications/notifications.service.ts:31 | the scan stops at the first character that is not ECMAScript white space, having passed only white space |
| Notifications.SkipTrailing | services/notification-service/src/modules/notifications/notifications.service.ts:31 | the backward scan stops after the last character that is not white space, having passed only white space |
| Notifications.TrimSpanEmptyIff | services/notification-service/src/modules/notifications/notifications.service.ts:31 | the kept span is empty exactly when the whole string is white space |
| Notifications.TrimSpan | services/notification-service/src/modules/notifications/notifications.service.ts:31 | the kept span has only white space outside it and none at its ends |
| Notifications.Trim | services/notification-service/src/modules/notifications/notifications.service.ts:31 | the result is the input with only leading and trailing ECMAScript white space cut off, starts and ends with non-space, and is empty iff the input is all white space |
| Notifications.TrimIdempotent | services/notification-service/src/modules/notifications/notifications.service.ts:31 | trimming twice is trimming once |
| Notifications.Language | services/notification-service/src/modules/notifications/notifications.service.ts:31 | the trimmed requested language, or fr when it is absent or blank; never empty |
| Notifications.FindByKey | services/notification-service/src/modules/notifications/notifications.service.ts:33-35 | the first notification with the key, or none exactly when no notification has it |
| Notifications.Create | services/notification-service/src/modules/notifications/notifications.service.ts:30-60 | an existing key returns that notification's id and status and changes nothing; otherwise one PENDING e-mail notification with no attempts is appended and its send is published |
| Notifications.ProcessSend | services/notification-service/src/modules/notifications/notifications.service.ts:75-147 | missing, SENT and DEAD are no-ops; otherwise one attempt numbered count+1; no template → PERMANENT attempt and DEAD, count kept; success → SENT, count+1, no next time; failure → count+1 and DEAD plus dead letter at the fifth attempt, else RETRYING at now + delay with a scheduled send; SEND_FAILED when the error has no message; only that notification changes |
| Notifications.AttemptsFor | services/notification-service/src/modules/notifications/notifications.service.ts:149-164 | a notification's recorded attempts never outnumber all attempts; none exactly when no attempt names it; all exactly when every attempt does |
| Notifications.AttemptsForSnoc | services/notification-service/src/modules/notifications/notifications.service.ts:149-164 | recording an attempt adds one to its own notification's count only |
| Notifications.CreateKeepsValid | services/notification-service/src/modules/notifications/notifications.service.ts:30-60 | creation keeps keys unique and the attempt bookkeeping exact |
| Notifications.ProcessSendKeepsValid | services/notification-service/src/modules/notifications/notifications.service.ts:75-147 | sending keeps: a live notification has fewer than five attempts, all recorded; a retrying one has a next time and no other does; attempts are numbered 1 to 5 |
| Notifications.FifthFailureDeadLetters | services/notification-service/src/modules/notifications/notifications.service.ts:119-129 | a failed send kills a live notification iff it is its fifth attempt, and then a dead letter is published |
| Notifications.TerminalIsAbsorbing | services/notification-service/src/modules/notifications/notifications.service.ts:80-81 | once SENT or DEAD, further sends change nothing |
| Notifications.CreateIdempotent | services/notification-service/src/modules/notifications/notifications.service.ts:33-39 | creating twice with one key creates once and answers the same |
| ReportingStats.TotalApplications | services/reporting-analytics/src/domain/reporting/EnrollmentStats.ts:15-22 | the total bounds each of the six counts and is zero iff all are |
| ReportingStats.ConversionRateToInscrit | services/reporting-analytics/src/domain/reporting/EnrollmentStats.ts:24-27 | 0 without applications, else the enrolled share: in [0, 1], times the total gives the enrolled count, 1 iff everyone enrolled |
| ReportingStats.AcceptanceRate | services/reporting-analytics/src/domain/reporting/EnrollmentStats.ts:29-32 | 0 without decisions, else the accepted share of decisions: in [0, 1], 1 iff some accepted and none refused |
| ReportingStats.RatioFacts | services/reporting-analytics/src/domain/reporting/EnrollmentStats.ts:26 | a part over a positive whole lies in [0, 1] and is 1 only for the whole |
| ReportingAccess.AccessByRole | services/reporting-analytics/src/domain/reporting/UserContext.ts:11-32 | a super admin reaches everything, no roles reach nothing; otherwise institution access iff institution admin of that institution, program access iff coordinator or institution admin with the program listed |
| ReportingAccess.InstitutionAdminNeedsProgramList | services/reporting-analytics/src/domain/reporting/UserContext.ts:23-32 | an institution admin reaches their institution but only the programs listed for them |
| ReportingQuery.Empty | services/reporting-analytics/src/domain/reporting/ReportQuery.ts:10-12 | every filter is unset |
| ReportingQuery.WithInstitution | services/reporting-analytics/src/domain/reporting/ReportQuery.ts:14-22 | sets the institution and leaves the other four fields |
| ReportingQuery.WithProgram | services/reporting-analytics/src/domain/reporting/ReportQuery.ts:24-32 | sets the program and leaves the other four fields |
| ReportingQuery.WithDateRange | services/reporting-analytics/src/domain/reporting/ReportQuery.ts:34-42 | sets both dates only |
| ReportingQuery.WithAcademicYear | services/reporting-analytics/src/domain/reporting/ReportQuery.ts:44-52 | sets the academic year only |
| ReportingQuery.BuildersCommute | services/reporting-analytics/src/domain/reporting/ReportQuery.ts:14-52 | builders on different fields commute, for all six pairs |
| ReportingQuery.LastBuilderWins | services/reporting-analytics/src/domain/reporting/ReportQuery.ts:14-52 | of two calls of one builder the last wins, for each of the four builders |
| ReportingRepository.FilterEnrollment | services/reporting-analytics/src/domain/reporting/InMemoryReportingRepository.ts:11-17 | an order-preserving selection of every matching row, each as often as it occurs, and no other |
| ReportingRepository.FilterProgram | services/reporting-analytics/src/domain/reporting/InMemoryReportingRepository.ts:21-26 | an order-preserving selection of every matching row, each as often as it occurs, and no other |
| ReportingRepository.QueryEnrollmentStats | services/reporting-analytics/src/domain/reporting/InMemoryReportingRepository.ts:10-18 | the stored rows, in order and with their multiplicity, whose institution and program match when set (non-empty), periodStart ≥ fromDate and periodEnd ≤ toDate when given |
| ReportingRepository.QueryProgramStats | services/reporting-analytics/src/domain/reporting/InMemoryReportingRepository.ts:20-27 | the stored rows, in order and with their multiplicity, matching institution, program and academic year when each is set (non-empty) |
| ReportingRepository.SeedEnrollmentStats | services/reporting-analytics/src/domain/reporting/InMemoryReportingRepository.ts:30-32 | replaces the enrollment rows entirely and keeps the program rows |
| ReportingRepository.SeedProgramStats | services/reporting-analytics/src/domain/reporting/InMemoryReportingRepository.ts:34-36 | replaces the program rows entirely and keeps the enrollment rows |
| ReportingRepository.UnfilteredReturnsAll | services/reporting-analytics/src/domain/reporting/InMemoryReportingRepository.ts:11-26 | with no filter in force (empty strings included) everything is returned |
| ReportingRepository.FilterEnrollmentAll | services/reporting-analytics/src/domain/reporting/InMemoryReportingRepository.ts:11-17 | a filter every row passes returns the rows themselves |
| ReportingRepository.FilterProgramAll | services/reporting-analytics/src/domain/reporting/InMemoryReportingRepository.ts:21-26 | a filter every row passes returns the rows themselves |
| ReportingRepository.EmptyQueryReturnsAll | services/reporting-analytics/src/domain/reporting/InMemoryReportingRepository.ts:11-26 | the empty query returns everything stored |
| ReportingRepository.ScopedToInstitution | services/reporting-analytics/src/domain/reporting/InMemoryReportingRepository.ts:12 | a query scoped to a non-empty institution returns only that institution's rows |
| ReportingRepository.ScopedToProgram | services/reporting-analytics/src/domain/reporting/InMemoryReportingRepository.ts:13 | a query scoped to a non-empty program returns only that program's rows |
| ReportingRepository.NarrowingIsSubsequence | services/reporting-analytics/src/domain/reporting/InMemoryReportingRepository.ts:11-17 | adding an institution filter keeps a subsequence of the wider result |
| ReportingService.Coalesce | services/reporting-analytics/src/domain/reporting/ReportingService.ts:22 | the first present value, as `??` picks it |
| ReportingService.GetGlobalStats | services/reporting-analytics/src/domain/reporting/ReportingService.ts:10-15 | succeeds iff super admin, with the unmodified query's rows; otherwise the denial message |
| ReportingService.GetInstitutionStats | services/reporting-analytics/src/domain/reporting/ReportingService.ts:17-31 | target before own institution; missing or empty id is refused; no access is denied; success iff both pass, with the query scoped to that institution |
| ReportingService.GetProgramStats | services/reporting-analytics/src/domain/reporting/ReportingService.ts:33-47 | target before the query's program; missing or empty refused; no access denied; success iff both pass, scoped to that program |
| ReportingService.GetProgramKpis | services/reporting-analytics/src/domain/reporting/ReportingService.ts:49-63 | the same checks, answering program statistics scoped to that program |
| ReportingService.InstitutionAdminSeesOwnInstitution | services/reporting-analytics/src/domain/reporting/ReportingService.ts:22-30 | a non-super-admin only ever receives rows of their own institution, whatever they ask for |
| ReportingService.ProgramReportsStayInScope | services/reporting-analytics/src/domain/reporting/ReportingService.ts:38-46 | a non-super-admin only receives rows of the one program asked for, which is on their list |
| ReportingService.EmptyTargetIsMissing | services/reporting-analytics/src/domain/reporting/ReportingService.ts:22-24 | an explicit empty target does not fall back and is refused as missing |
| AuthMiddleware.FirstSpace | services/document-service/internal/middleware/auth.go:28 | the first space's position, or none exactly when there is no space |
| AuthMiddleware.SplitAtFirstSpace | services/document-service/internal/middleware/auth.go:28 | one part iff there is no space; two parts that rejoin to the header around the first space |
| AuthMiddleware.BearerToken | services/document-service/internal/middleware/auth.go:28-34 | a token iff two parts with a case-insensitive "Bearer" scheme; the token is everything after the first space |
| AuthMiddleware.Authenticate | services/document-service/internal/middleware/auth.go:20-56 | empty header, bad format, bad token each answer 401 with their message; success stores exactly user_id, role and institution_id from the claims and keeps the rest of the context |
| AuthMiddleware.RequireRole | services/document-service/internal/middleware/auth.go:59-92 | missing or non-string role is 403; passes iff the role is SUPER_ADMIN or allowed; otherwise 403 |
| AuthMiddleware.BearerRoundTrip | services/document-service/internal/middleware/auth.go:28-34 | any spelling of Bearer, a space and a token yield exactly that token, spaces included |
| AuthMiddleware.AuthenticatedRoleCheck | services/document-service/internal/middleware/auth.go:50-51 | after authentication the role check depends only on the token's role |
| AuthMiddleware.SuperAdminBypasses | services/document-service/internal/middleware/auth.go:74-77 | SUPER_ADMIN passes even an empty allowed list |
| Pagination.PageRun | services/web-app/src/components/ui/Pagination.jsx:4-5 | consecutive page numbers from a start |
| Pagination.Visible | services/web-app/src/components/ui/Pagination.jsx:2-13 | nothing iff at most one page; every page 1..total when at most seven |
| Pagination.VisibleShape | services/web-app/src/components/ui/Pagination.jsx:8-13 | at most seven items, page 1 first and the last page last, pages strictly increasing within range, each ellipsis hiding at least one page, the current page shown when in range |
| Pagination.FullShape | services/web-app/src/components/ui/Pagination.jsx:9 | the full list is well shaped |
| Pagination.SevenShape | services/web-app/src/components/ui/Pagination.jsx:10-12 | each of the three seven-item windows is well shaped |
| Pagination.NoEllipsisIffShort | services/web-app/src/components/ui/Pagination.jsx:9-12 | an ellipsis appears iff there are more than seven pages |
| Pagination.ButtonsStayInRange | services/web-app/src/components/ui/Pagination.jsx:18-19 | prev is disabled iff on page 1, next iff on the last page; an enabled one leads to a page in range |

## Left out

- HTTP and framework plumbing: routing, Gin binding and Laravel validation wiring beyond the rules
  each handler states, NestJS controllers, JSON rendering. Path ids are natural numbers, so the
  Go handlers' 400 for an id that does not parse as a 32-bit unsigned integer is not modelled.
- Listing, showing and deleting records (`List`, `Get`, `Catalogue`, `Delete`, `index`, `show`,
  `catalog`, `destroy`, `byEstablishment`, the period `update` and `show`). They are plain reads or
  soft deletes with no rule to state.
- Persistence is not modelled. The GORM, Eloquent and Mongo repositories are abstracted: each Go
  write is a boolean outcome. Laravel writes are assumed to succeed, because a failure there is an
  exception rendered as 500 by the framework. `MongoReportingRepository` is not part of this model.
  Its date filter differs from the in-memory one.
- Notification transport is not modelled. This covers RabbitMQ publishing (kept only as a log of
  published messages, with the default routing keys), the queue-binding step, the worker, the SMTP
  mailer and the Handlebars renderer. The template lookup and the mailer/renderer outcome are
  parameters of `ProcessSend`.
- Failures of the Mongo writes inside `create`, `processSend`, `markDead` and `recordAttempt` are
  not modelled. Each request is one atomic step.
- JWT signature verification, slug generation and password hashing are foreign code. They are
  oracle parameters (`verify`, `slug`) or are left out.
- Wall-clock time and date parsing. `now` is an integer; RFC 3339 and ISO-8601 strings, and the
  handlers' 400 for an unparsable date, are represented by `None` dates. JavaScript `Date`
  comparisons are integer comparisons, and an Invalid Date is not modelled beyond `RetryDelay`'s
  `None`.
- Concurrency. The handlers' read-modify-write races and the scheduler's interval timer are not
  modelled.
- E-mail syntax validation in the application `Create` binding.
- The French inscription lifecycle (PREINSCRIPTION … INSCRIT). No source file defines its
  transition table, so the model asserts no French edge. The orchestrator is generic over the
  `Lifecycle` and would take that table unchanged.
- ApplicationHandler.Transition: the 409 body's `allowed` list is a Go slice, which serialises as
  `null` when the current status has no table entry. It is modelled as `Option` (`None` for that
  case) rather than as a JSON value.
- ReportingStats: counts are natural numbers and rates are exact reals. JavaScript number rounding
  and negative or fractional counts are not modelled.
- CloseRegistrationsJob.Run: `outcome(i)` gives the answers of the i-th program's three calls. The
  job's arithmetic on `affectedApplications` is exact integer addition, not floating point.
- RegistrationPeriodController.RegistrationsToClose: `before` is an integer instant, while the
  source compares the database column with the query string as given. The `(int)` cast of the
  `limit` parameter is not modelled: the limit arrives as an integer. The query has no ordering
  clause, so the source's row order is whatever the database returns; the model fixes table order.
  A formation missing from the store stands for one that was soft-deleted, and this is the 500 case.
- The period `store` leaves the `max_applications` and `notes` columns as they are when the request
  omits them. This is `PeriodInput`'s outer `None`. A new row has null there.
- Pagination: only the visible window and the prev/next disabled conditions are modelled; the
  rendering, the click handlers and the styles are not.

=== FILE: application_handler.dfy ===
/**
 * The application handler's Create and Transition operations over an
 * immutable store: applications keyed by id, plus the append-only decision
 * and history tables. Each database write is an outcome parameter: `true`
 * when the write succeeds. The lifecycle (table, initial state,
 * decision-worthy targets) is a parameter; the service itself uses
 * `ApplicationModel.ApplicationLifecycle`.
 */
module ApplicationHandler {
  import opened Wrappers
  import opened TransitionTable
  import opened ApplicationModel

  datatype Application = Application(
    id: nat,
    candidateId: string,
    programId: nat,
    status: Status,
    fullName: string,
    email: string,
    phone: string,
    notes: string)

  /** Who decided what on an application, and why. */
  datatype Decision = Decision(applicationId: nat, decidedBy: string, status: Status, comment: string)

  /** One audit-trail entry: the old and new status and who changed it. */
  datatype HistoryEntry = HistoryEntry(applicationId: nat, oldStatus: Status, newStatus: Status, changedBy: string)

  /** Ids are handed out from `nextId` upwards. */
  datatype Store = Store(
    apps: map<nat, Application>,
    decisions: seq<Decision>,
    history: seq<HistoryEntry>,
    nextId: nat)

  datatype HandlerError =
    | InvalidInput
    | NotFound
    | InvalidTransition(current: Status, target: Status, allowed: Option<seq<Status>>)
    | PersistenceError

  /** The HTTP status the handler answers each error with. */
  function HttpStatus(e: HandlerError): int
  {
    match e
    case InvalidInput => 400
    case NotFound => 404
    case InvalidTransition(_, _, _) => 409
    case PersistenceError => 500
  }

  datatype CreateInput = CreateInput(
    candidateId: string, programId: nat, fullName: string, email: string, phone: string, notes: string)

  datatype TransitionInput = TransitionInput(status: string, changedBy: string, comment: string)

  /** Outcomes of the three writes a transition performs, in order. */
  datatype Writes = Writes(persistOk: bool, decisionOk: bool, historyOk: bool)

  datatype Outcome = Outcome(store: Store, result: Result<Application, HandlerError>)

  /** The request binding of Create: the three required strings are non-empty
      and the program id is non-zero (the e-mail syntax check is not modelled). */
  predicate ValidCreateInput(input: CreateInput)
  {
    input.candidateId != "" && input.programId != 0 && input.fullName != "" && input.email != ""
  }

  /** Creates an application in the lifecycle's initial state, whatever the input. */
  function Create(lc: Lifecycle<Status>, s: Store, input: CreateInput, persistOk: bool): (o: Outcome)
    ensures o.result.Success? <==> ValidCreateInput(input) && persistOk
    ensures o.result.Failure? ==> o.store == s
    ensures o.result.Success? && s.nextId !in s.apps ==> o.store.apps.Keys == s.apps.Keys + {s.nextId}
    ensures o.result.Success? ==>
              && s.nextId in o.store.apps && o.store.apps[s.nextId] == o.result.value
              && o.result.value.status == lc.initial
              && o.result.value.candidateId == input.candidateId
              && o.result.value.programId == input.programId
              && o.result.value.fullName == input.fullName
              && o.result.value.email == input.email
              && o.result.value.phone == input.phone
              && o.result.value.notes == input.notes
              && o.store.nextId > s.nextId
              && (forall id :: id in s.apps && id != s.nextId ==> id in o.store.apps && o.store.apps[id] == s.apps[id])
              && o.store.decisions == s.decisions
              && o.store.history == s.history
  {
    if !ValidCreateInput(input) then Outcome(s, Failure(InvalidInput))
    else if !persistOk then Outcome(s, Failure(PersistenceError))
    else
      var app := Application(s.nextId, input.candidateId, input.programId, lc.initial,
                             input.fullName, input.email, input.phone, input.notes);
      Outcome(Store(s.apps[s.nextId := app], s.decisions, s.history, s.nextId + 1), Success(app))
  }

  /** The transition handler: bind the input, load the application, check
      the edge, persist the new status, then write a decision (only for
      decision-worthy targets) and a history entry. Failures of the last two
      writes are ignored. */
  function Transition(lc: Lifecycle<Status>, s: Store, id: nat, input: TransitionInput, w: Writes): (o: Outcome)
    // Every failure leaves the whole store as it was.
    ensures o.result.Failure? ==> o.store == s
    ensures (input.status == "" || input.changedBy == "") ==> o.result == Failure(InvalidInput)
    ensures input.status != "" && input.changedBy != "" && id !in s.apps ==> o.result == Failure(NotFound)
    ensures input.status != "" && input.changedBy != "" && id in s.apps
              && !CanTransitionTo(lc.table, s.apps[id].status, input.status) ==>
              o.result == Failure(InvalidTransition(s.apps[id].status, input.status, Lookup(lc.table, s.apps[id].status)))
    ensures input.status != "" && input.changedBy != "" && id in s.apps
              && CanTransitionTo(lc.table, s.apps[id].status, input.status) && !w.persistOk ==>
              o.result == Failure(PersistenceError)
    // Success exactly when the input binds, the id exists, the edge is legal and the status is persisted.
    ensures o.result.Success? <==>
              input.status != "" && input.changedBy != "" && id in s.apps
              && CanTransitionTo(lc.table, s.apps[id].status, input.status) && w.persistOk
    // On success only the status of this one application changes.
    ensures o.result.Success? ==>
              && o.result.value == s.apps[id].(status := input.status)
              && o.store.apps == s.apps[id := o.result.value]
              && o.store.nextId == s.nextId
    // Both tables are append-only; at most one row is added to each.
    ensures |s.decisions| <= |o.store.decisions| && o.store.decisions[..|s.decisions|] == s.decisions
    ensures |s.history| <= |o.store.history| && o.store.history[..|s.history|] == s.history
    // A decision row is added iff the transition succeeds to a decision-worthy target and the row is written.
    ensures |o.store.decisions| == |s.decisions| + (if o.result.Success? && input.status in lc.decisionWorthy && w.decisionOk then 1 else 0)
    ensures |o.store.decisions| > |s.decisions| ==>
              o.store.decisions[|s.decisions|] == Decision(id, input.changedBy, input.status, input.comment)
    // A history row is added iff the transition succeeds and the row is written.
    ensures |o.store.history| == |s.history| + (if o.result.Success? && w.historyOk then 1 else 0)
    ensures |o.store.history| > |s.history| ==>
              o.store.history[|s.history|] == HistoryEntry(id, s.apps[id].status, input.status, input.changedBy)
  {
    if input.status == "" || input.changedBy == "" then Outcome(s, Failure(InvalidInput))
    else if id !in s.apps then Outcome(s, Failure(NotFound))
    else
      var app := s.apps[id];
      var target := input.status;
      if !CanTransitionTo(lc.table, app.status, target) then
        Outcome(s, Failure(InvalidTransition(app.status, target, Lookup(lc.table, app.status))))
      else if !w.persistOk then Outcome(s, Failure(PersistenceError))
      else
        var updated := app.(status := target);
        var decisions :=
          if target in lc.decisionWorthy && w.decisionOk
          then s.decisions + [Decision(id, input.changedBy, target, input.comment)]
          else s.decisions;
        var history :=
          if w.historyOk
          then s.history + [HistoryEntry(id, app.status, target, input.changedBy)]
          else s.history;
        Outcome(Store(s.apps[id := updated], decisions, history, s.nextId), Success(updated))
  }

  // ---------------------------------------------------------------------
  // The audit trail
  // ---------------------------------------------------------------------

  /** The (old, new) pairs of one application's history, in the order written. */
  function TrailOf(history: seq<HistoryEntry>, id: nat): seq<(Status, Status)>
    decreases |history|
  {
    if |history| == 0 then []
    else
      var last := history[|history| - 1];
      TrailOf(history[..|history| - 1], id)
        + (if last.applicationId == id then [(last.oldStatus, last.newStatus)] else [])
  }

  /** Every history row records a legal edge and every decision a
      decision-worthy status. Holds whatever the write outcomes. */
  ghost predicate RowsWellFormed(lc: Lifecycle<Status>, s: Store)
  {
    && (forall i :: 0 <= i < |s.history| ==> CanTransitionTo(lc.table, s.history[i].oldStatus, s.history[i].newStatus))
    && (forall i :: 0 <= i < |s.decisions| ==> s.decisions[i].status in lc.decisionWorthy)
  }

  /** The store's audit trail is complete: ids lie below `nextId`, every
      history row belongs to a stored application, and folding an
      application's trail from the initial state reproduces its status. */
  ghost predicate TrailComplete(lc: Lifecycle<Status>, s: Store)
  {
    && (forall id :: id in s.apps ==> s.apps[id].id == id && id < s.nextId)
    && (forall i :: 0 <= i < |s.history| ==> s.history[i].applicationId in s.apps)
    && (forall id :: id in s.apps ==> Replay(lc.table, lc.initial, TrailOf(s.history, id)) == Some(s.apps[id].status))
  }

  lemma {:induction false} TrailOfAbsent(history: seq<HistoryEntry>, id: nat)
    requires forall i :: 0 <= i < |history| ==> history[i].applicationId != id
    ensures TrailOf(history, id) == []
    decreases |history|
  {
    if |history| > 0 {
      TrailOfAbsent(history[..|history| - 1], id);
    }
  }

  lemma TrailOfSnoc(history: seq<HistoryEntry>, e: HistoryEntry, id: nat)
    ensures TrailOf(history + [e], id) ==
              TrailOf(history, id) + (if e.applicationId == id then [(e.oldStatus, e.newStatus)] else [])
  {
    assert (history + [e])[..|history|] == history;
  }

  lemma CreatePreservesWellFormed(lc: Lifecycle<Status>, s: Store, input: CreateInput, persistOk: bool)
    requires RowsWellFormed(lc, s)
    ensures RowsWellFormed(lc, Create(lc, s, input, persistOk).store)
  {
  }

  /** Whatever the outcomes of the writes, no transition ever records an illegal edge. */
  lemma TransitionPreservesWellFormed(lc: Lifecycle<Status>, s: Store, id: nat, input: TransitionInput, w: Writes)
    requires RowsWellFormed(lc, s)
    ensures RowsWellFormed(lc, Transition(lc, s, id, input, w).store)
  {
  }

  /** A new application starts with an empty trail that replays to its initial status. */
  lemma CreatePreservesTrail(lc: Lifecycle<Status>, s: Store, input: CreateInput, persistOk: bool)
    requires TrailComplete(lc, s)
    ensures TrailComplete(lc, Create(lc, s, input, persistOk).store)
  {
    var o := Create(lc, s, input, persistOk);
    if o.result.Success? {
      TrailOfAbsent(s.history, s.nextId);
    }
  }

  /** When every history write succeeds, each application's trail keeps
      replaying, edge by legal edge, to its current status. */
  lemma TransitionPreservesTrail(lc: Lifecycle<Status>, s: Store, id: nat, input: TransitionInput, w: Writes)
    requires TrailComplete(lc, s)
    requires w.historyOk
    ensures TrailComplete(lc, Transition(lc, s, id, input, w).store)
  {
    var o := Transition(lc, s, id, input, w);
    if o.result.Success? {
      var e := HistoryEntry(id, s.apps[id].status, input.status, input.changedBy);
      assert o.store.history == s.history + [e];
      forall j | j in o.store.apps
        ensures Replay(lc.table, lc.initial, TrailOf(o.store.history, j)) == Some(o.store.apps[j].status)
      {
        TrailOfSnoc(s.history, e, j);
        if j == id {
          ReplaySnoc(lc.table, lc.initial, TrailOf(s.history, id), (s.apps[id].status, input.status));
        } else {
          assert TrailOf(o.store.history, j) == TrailOf(s.history, j);
        }
      }
    }
  }

  /** Because a failed history write is ignored, the trail can fall behind
      the stored status: one DRAFT application, moved to SUBMITTED while the
      history write fails, no longer replays to its status. */
  lemma LostHistoryWriteBreaksTrail()
    ensures var app := Application(1, "cand", 7, StatusDraft, "Name", "a@b.c", "", "");
            var s := Store(map[1 := app], [], [], 2);
            var o := Transition(ApplicationLifecycle, s, 1, TransitionInput(StatusSubmitted, "alice", ""), Writes(true, true, false));
            TrailComplete(ApplicationLifecycle, s) && o.result.Success? && !TrailComplete(ApplicationLifecycle, o.store)
  {
    var app := Application(1, "cand", 7, StatusDraft, "Name", "a@b.c", "", "");
    var s := Store(map[1 := app], [], [], 2);
    var o := Transition(ApplicationLifecycle, s, 1, TransitionInput(StatusSubmitted, "alice", ""), Writes(true, true, false));
    Successors(StatusSubmitted);
    assert TrailOf([], 1) == [];
    assert o.store.history == [];
    assert o.store.apps[1].status == StatusSubmitted;
  }

  /** DRAFT -> SUBMITTED writes no decision; UNDER_REVIEW -> ACCEPTED writes exactly one. */
  lemma DecisionOnlyForDecisionTargets(s: Store, id: nat, actor: string, comment: string)
    requires actor != ""
    requires id in s.apps
    ensures s.apps[id].status == StatusDraft ==>
              var o := Transition(ApplicationLifecycle, s, id, TransitionInput(StatusSubmitted, actor, comment), Writes(true, true, true));
              o.result.Success? && o.store.decisions == s.decisions && |o.store.history| == |s.history| + 1
    ensures s.apps[id].status == StatusUnderReview ==>
              var o := Transition(ApplicationLifecycle, s, id, TransitionInput(StatusAccepted, actor, comment), Writes(true, true, true));
              o.result.Success? && o.store.decisions == s.decisions + [Decision(id, actor, StatusAccepted, comment)]
  {
    Successors(StatusSubmitted);
    Successors(StatusAccepted);
  }

  /** SUBMITTED cannot jump to ACCEPTED: the error lists UNDER_REVIEW as the only allowed target. */
  lemma SubmittedCannotJumpToAccepted(s: Store, id: nat, actor: string, w: Writes)
    requires actor != ""
    requires id in s.apps && s.apps[id].status == StatusSubmitted
    ensures Transition(ApplicationLifecycle, s, id, TransitionInput(StatusAccepted, actor, ""), w)
            == Outcome(s, Failure(InvalidTransition(StatusSubmitted, StatusAccepted, Some([StatusUnderReview]))))
  {
    Successors(StatusAccepted);
  }
}

=== FILE: application_model.dfy ===
/**
 * The application-service lifecycle: the six status names, the adjacency
 * table `ValidTransitions`, and the decision-worthy targets. A status is a
 * plain string, as in the service, so a request may name any string; only
 * the six names below occur in the table.
 */
module ApplicationModel {
  import opened Wrappers
  import opened TransitionTable

  type Status = string

  const StatusDraft: Status := "DRAFT"
  const StatusSubmitted: Status := "SUBMITTED"
  const StatusUnderReview: Status := "UNDER_REVIEW"
  const StatusAccepted: Status := "ACCEPTED"
  const StatusRejected: Status := "REJECTED"
  const StatusWaitlisted: Status := "WAITLISTED"

  /** The six statuses the service defines. */
  const KnownStatuses: set<Status> :=
    {StatusDraft, StatusSubmitted, StatusUnderReview, StatusAccepted, StatusRejected, StatusWaitlisted}

  const ValidTransitions: Table<Status> := map[
    StatusDraft := [StatusSubmitted],
    StatusSubmitted := [StatusUnderReview],
    StatusUnderReview := [StatusAccepted, StatusRejected, StatusWaitlisted],
    StatusWaitlisted := [StatusAccepted, StatusRejected]
  ]

  /** Targets for which the transition handler writes a Decision record. */
  const DecisionStatuses: set<Status> :=
    {StatusUnderReview, StatusAccepted, StatusRejected, StatusWaitlisted}

  const ApplicationLifecycle: Lifecycle<Status> :=
    Lifecycle(ValidTransitions, StatusDraft, DecisionStatuses)

  predicate CanTransition(s: Status, t: Status) {
    CanTransitionTo(ValidTransitions, s, t)
  }

  /** Only DRAFT, SUBMITTED, UNDER_REVIEW and WAITLISTED have outgoing
      edges: the sinks ACCEPTED and REJECTED, and every unknown string,
      can move nowhere. */
  lemma NoEntryNoTransition(s: Status, t: Status)
    requires s !in {StatusDraft, StatusSubmitted, StatusUnderReview, StatusWaitlisted}
    ensures !CanTransition(s, t)
  {
  }

  lemma SinksHaveNoSuccessors(t: Status)
    ensures !CanTransition(StatusAccepted, t)
    ensures !CanTransition(StatusRejected, t)
  {
  }

  /** The exact successor sets of the four states with an entry. */
  lemma Successors(t: Status)
    ensures CanTransition(StatusDraft, t) <==> t == StatusSubmitted
    ensures CanTransition(StatusSubmitted, t) <==> t == StatusUnderReview
    ensures CanTransition(StatusUnderReview, t) <==> t in {StatusAccepted, StatusRejected, StatusWaitlisted}
    ensures CanTransition(StatusWaitlisted, t) <==> t in {StatusAccepted, StatusRejected}
  {
  }

  /** Position of a status along the lifecycle; every legal edge strictly raises it. */
  function Rank(s: Status): nat
  {
    if s == StatusDraft then 0
    else if s == StatusSubmitted then 1
    else if s == StatusUnderReview then 2
    else if s == StatusWaitlisted then 3
    else 4
  }

  lemma EdgeRaisesRank(s: Status, t: Status)
    requires CanTransition(s, t)
    ensures Rank(s) < Rank(t)
    ensures s != t
    ensures t != StatusDraft
  {
    Successors(t);
  }

  /** A legal walk of k edges from `s` ends at least k ranks higher. */
  lemma {:induction false} WalkRaisesRank(s: Status, edges: seq<(Status, Status)>)
    requires Replay(ValidTransitions, s, edges).Some?
    ensures Rank(s) + |edges| <= Rank(Replay(ValidTransitions, s, edges).value)
    decreases |edges|
  {
    if |edges| > 0 {
      EdgeRaisesRank(s, edges[0].1);
      WalkRaisesRank(edges[0].1, edges[1..]);
    }
  }

  /** The graph is acyclic: no legal walk has more than four edges, and a
      non-empty legal walk never returns to where it started. */
  lemma WalksAreShort(s: Status, edges: seq<(Status, Status)>)
    requires Replay(ValidTransitions, s, edges).Some?
    ensures |edges| <= 4
    ensures |edges| > 0 ==> Replay(ValidTransitions, s, edges).value != s
  {
    WalkRaisesRank(s, edges);
  }

  /** Every one of the six statuses is reached from DRAFT by some legal walk. */
  lemma EveryStatusReachable(s: Status)
    requires s in KnownStatuses
    ensures exists edges :: Replay(ValidTransitions, StatusDraft, edges) == Some(s)
  {
    var e1 := (StatusDraft, StatusSubmitted);
    var e2 := (StatusSubmitted, StatusUnderReview);
    var e3 := (StatusUnderReview, StatusWaitlisted);
    Successors(StatusSubmitted);
    Successors(StatusUnderReview);
    Successors(StatusWaitlisted);
    Successors(s);
    if s == StatusDraft {
      assert Replay(ValidTransitions, StatusDraft, []) == Some(s);
    } else if s == StatusSubmitted {
      ReplaySnoc(ValidTransitions, StatusDraft, [], e1);
      assert Replay(ValidTransitions, StatusDraft, [e1]) == Some(s);
    } else if s == StatusUnderReview {
      ReplaySnoc(ValidTransitions, StatusDraft, [], e1);
      ReplaySnoc(ValidTransitions, StatusDraft, [e1], e2);
      assert [e1] + [e2] == [e1, e2];
      assert Replay(ValidTransitions, StatusDraft, [e1, e2]) == Some(s);
    } else {
      ReplaySnoc(ValidTransitions, StatusDraft, [], e1);
      ReplaySnoc(ValidTransitions, StatusDraft, [e1], e2);
      assert [e1] + [e2] == [e1, e2];
      ReplaySnoc(ValidTransitions, StatusDraft, [e1, e2], e3);
      assert [e1, e2] + [e3] == [e1, e2, e3];
      if s == StatusWaitlisted {
        assert Replay(ValidTransitions, StatusDraft, [e1, e2, e3]) == Some(s);
      } else {
        var e4 := (StatusWaitlisted, s);
        ReplaySnoc(ValidTransitions, StatusDraft, [e1, e2, e3], e4);
        assert Replay(ValidTransitions, StatusDraft, [e1, e2, e3] + [e4]) == Some(s);
      }
    }
  }
}

=== FILE: auth_middleware.dfy ===
/**
 * The document service's HTTP middleware: bearer-token authentication,
 * which stores the token's claims in the request context, and role-based
 * authorisation, which reads the role back from it.
 *
 * Signature checking is not modelled: `verify` stands for parsing and
 * validating a token with the service's secret, and answers its claims or
 * nothing.
 */
module AuthMiddleware {
  import opened Wrappers

  datatype Claims = Claims(userId: string, role: string, institutionId: string)

  /** A value stored in the request context: a string, or anything else. */
  datatype ContextValue = Text(s: string) | Other

  type Context = map<string, ContextValue>

  /** An aborted request: its HTTP status and the error message of its JSON body. */
  datatype Abort = Abort(status: int, message: string)

  const Unauthorized: int := 401
  const Forbidden: int := 403

  const TokenMissing: string := "token manquant"
  const BadFormat: string := "format Authorization invalide"
  const TokenInvalid: string := "token invalide"
  const RoleNotFound: string := "rôle non trouvé"
  const RoleInvalid: string := "rôle invalide"
  const AccessDenied: string := "accès refusé"

  const SuperAdminRole: string := "SUPER_ADMIN"

  /** The position of the first space, if any. */
  function FirstSpace(s: string): (r: Option<nat>)
    ensures r.Some? ==> r.value < |s| && s[r.value] == ' '
    ensures r.Some? ==> forall i :: 0 <= i < r.value ==> s[i] != ' '
    ensures r.None? <==> forall i :: 0 <= i < |s| ==> s[i] != ' '
    decreases |s|
  {
    if |s| == 0 then None
    else if s[0] == ' ' then Some(0)
    else
      match FirstSpace(s[1..])
      case None => None
      case Some(k) => Some(k + 1)
  }

  /** Splitting at the first space into at most two parts; the second keeps any later spaces. */
  function SplitAtFirstSpace(s: string): (parts: seq<string>)
    ensures 1 <= |parts| <= 2
    ensures |parts| == 1 <==> forall i :: 0 <= i < |s| ==> s[i] != ' '
    ensures |parts| == 1 ==> parts[0] == s
    ensures |parts| == 2 ==> s == parts[0] + " " + parts[1] && forall i :: 0 <= i < |parts[0]| ==> parts[0][i] != ' '
  {
    match FirstSpace(s)
    case None => [s]
    case Some(k) => [s[..k], s[k + 1..]]
  }

  function LowerAscii(c: char): char
  {
    if 'A' <= c <= 'Z' then (c as int - 'A' as int + 'a' as int) as char else c
  }

  /**
   * Case-insensitive equality with "Bearer". For the letters of "Bearer"
   * Unicode case folding coincides with ASCII case folding, so comparing
   * lower-cased ASCII letters is exact.
   */
  predicate IsBearer(s: string)
  {
    |s| == 6 && forall i :: 0 <= i < 6 ==> LowerAscii(s[i]) == "bearer"[i]
  }

  /** The token of a well-formed header: whatever follows the first space after a "Bearer" scheme. */
  function BearerToken(header: string): (r: Option<string>)
    ensures r.Some? <==> |SplitAtFirstSpace(header)| == 2 && IsBearer(SplitAtFirstSpace(header)[0])
    ensures r.Some? ==> header == SplitAtFirstSpace(header)[0] + " " + r.value
  {
    var parts := SplitAtFirstSpace(header);
    if |parts| != 2 || !IsBearer(parts[0]) then None else Some(parts[1])
  }

  /** Authenticates a request by its Authorization header and stores the claims in the context. */
  function Authenticate(ctx: Context, header: string, verify: string -> Option<Claims>): (r: Result<Context, Abort>)
    ensures header == "" ==> r == Failure(Abort(Unauthorized, TokenMissing))
    ensures header != "" && BearerToken(header).None? ==> r == Failure(Abort(Unauthorized, BadFormat))
    ensures header != "" && BearerToken(header).Some? && verify(BearerToken(header).value).None? ==>
              r == Failure(Abort(Unauthorized, TokenInvalid))
    ensures r.Failure? ==> r.error.status == Unauthorized
    ensures r.Success? <==> header != "" && BearerToken(header).Some? && verify(BearerToken(header).value).Some?
    ensures r.Success? ==>
              var claims := verify(BearerToken(header).value).value;
              && r.value.Keys == ctx.Keys + {"user_id", "role", "institution_id"}
              && r.value["user_id"] == Text(claims.userId)
              && r.value["role"] == Text(claims.role)
              && r.value["institution_id"] == Text(claims.institutionId)
              && forall k :: k in ctx && k !in {"user_id", "role", "institution_id"} ==> r.value[k] == ctx[k]
  {
    if header == "" then Failure(Abort(Unauthorized, TokenMissing))
    else
      match BearerToken(header)
      case None => Failure(Abort(Unauthorized, BadFormat))
      case Some(token) =>
        match verify(token)
        case None => Failure(Abort(Unauthorized, TokenInvalid))
        case Some(claims) =>
          Success(ctx["user_id" := Text(claims.userId)]["role" := Text(claims.role)]
                     ["institution_id" := Text(claims.institutionId)])
  }

  /** Lets the request through when its role is the super administrator's or one of `allowed`. */
  function RequireRole(ctx: Context, allowed: seq<string>): (r: Result<(), Abort>)
    ensures "role" !in ctx ==> r == Failure(Abort(Forbidden, RoleNotFound))
    ensures "role" in ctx && ctx["role"].Other? ==> r == Failure(Abort(Forbidden, RoleInvalid))
    ensures r.Failure? ==> r.error.status == Forbidden
    ensures r.Success? <==> "role" in ctx && ctx["role"].Text? && (ctx["role"].s == SuperAdminRole || ctx["role"].s in allowed)
  {
    if "role" !in ctx then Failure(Abort(Forbidden, RoleNotFound))
    else
      match ctx["role"]
      case Other => Failure(Abort(Forbidden, RoleInvalid))
      case Text(role) =>
        if role == SuperAdminRole || role in allowed then Success(()) else Failure(Abort(Forbidden, AccessDenied))
  }

  /** Any spelling of the scheme, followed by a space and a token, yields exactly that token. */
  lemma BearerRoundTrip(scheme: string, token: string)
    requires IsBearer(scheme)
    ensures BearerToken(scheme + " " + token) == Some(token)
  {
    var h := scheme + " " + token;
    assert forall i :: 0 <= i < 6 ==> h[i] == scheme[i];
    assert forall i :: 0 <= i < 6 ==> scheme[i] != ' ' by {
      forall i | 0 <= i < 6 ensures scheme[i] != ' ' {
        assert LowerAscii(scheme[i]) == "bearer"[i];
      }
    }
    assert h[6] == ' ';
    var parts := SplitAtFirstSpace(h);
    assert FirstSpace(h) == Some(6);
    assert parts == [h[..6], h[7..]];
    assert h[..6] == scheme && h[7..] == token;
  }

  /** Once authenticated, a request passes a role check exactly when its token's role is allowed or is the super administrator's. */
  lemma AuthenticatedRoleCheck(ctx: Context, header: string, verify: string -> Option<Claims>, allowed: seq<string>)
    requires Authenticate(ctx, header, verify).Success?
    ensures var role := verify(BearerToken(header).value).value.role;
            RequireRole(Authenticate(ctx, header, verify).value, allowed).Success? <==>
              role == SuperAdminRole || role in allowed
  {
  }

  /** The super administrator passes every role check, even one that allows nobody. */
  lemma SuperAdminBypasses(ctx: Context)
    requires "role" in ctx && ctx["role"] == Text(SuperAdminRole)
    ensures RequireRole(ctx, []).Success?
  {
  }
}

=== FILE: close_expired_registrations.dfy ===
/**
 * The institution service's `registrations:close-expired` console command:
 * closes every open, auto-closing period whose end date lies strictly
 * before `now`. The notification sent after each close swallows its own
 * failures, so it has no effect on the outcome and is not modelled.
 */
module CloseExpiredRegistrations {
  import opened InstitutionModels
  import opened RegistrationPeriodController

  /** The command's exit status on every run. */
  const Success: int := 0

  datatype SweepResult = SweepResult(periods: seq<RegistrationPeriod>, closedCount: nat, exitCode: int)

  /** The rows after the sweep, and how many of them it closed. */
  function CloseAll(ps: seq<RegistrationPeriod>, now: int): (r: (seq<RegistrationPeriod>, nat))
    ensures |r.0| == |ps|
    // Exactly the closable rows are closed; every other row is untouched.
    ensures forall i :: 0 <= i < |ps| ==>
              if Closable(ps[i], now) then r.0[i] == ps[i].(isOpen := false) else r.0[i] == ps[i]
    // Nothing open, auto-closing and expired remains.
    ensures forall i :: 0 <= i < |ps| ==> !Closable(r.0[i], now)
    // The count is the number of rows the selection query matches.
    ensures r.1 == |ClosableRows(ps, now)|
    decreases |ps|
  {
    if |ps| == 0 then ([], 0)
    else
      var rest := CloseAll(ps[1..], now);
      var closes := Closable(ps[0], now);
      var head := if closes then ps[0].(isOpen := false) else ps[0];
      var rows := [head] + rest.0;
      assert forall i :: 1 <= i < |ps| ==> rows[i] == rest.0[i - 1] && ps[i] == ps[1..][i - 1];
      assert |ClosableRows(ps, now)| == |ClosableRows(ps[1..], now)| + (if closes then 1 else 0);
      (rows, rest.1 + (if closes then 1 else 0))
  }

  function Handle(s: PeriodStore, now: int): (r: SweepResult)
    ensures r.exitCode == Success
    ensures r.closedCount <= |s.periods|
    ensures |r.periods| == |s.periods|
    // Every open, auto-closing, expired period is closed, and the count is
    // the number of rows the selection query matches.
    ensures forall i :: 0 <= i < |s.periods| && Closable(s.periods[i], now) ==>
              r.periods[i] == s.periods[i].(isOpen := false)
    ensures r.closedCount == |ClosableRows(s.periods, now)|
    // Every other period is untouched: those not auto-closing, not yet ended, or already closed.
    ensures forall i :: 0 <= i < |s.periods| && !Closable(s.periods[i], now) ==>
              r.periods[i] == s.periods[i]
  {
    var (ps, n) := CloseAll(s.periods, now);
    SweepResult(ps, n, Success)
  }

  /** Running the sweep a second time at the same instant closes nothing. */
  lemma SweepIdempotent(ps: seq<RegistrationPeriod>, now: int)
    ensures CloseAll(CloseAll(ps, now).0, now) == (CloseAll(ps, now).0, 0)
  {
    var once := CloseAll(ps, now).0;
    NoneClosableCloseAll(once, now);
  }

  lemma {:induction false} NoneClosableCloseAll(ps: seq<RegistrationPeriod>, now: int)
    requires forall i :: 0 <= i < |ps| ==> !Closable(ps[i], now)
    ensures CloseAll(ps, now) == (ps, 0)
    decreases |ps|
  {
    if |ps| > 0 {
      NoneClosableCloseAll(ps[1..], now);
      assert [ps[0]] + ps[1..] == ps;
    }
  }

  /** The sweep agrees with the scheduler's query: after it, the query run at
      the same instant returns nothing. */
  lemma SweepEmptiesSchedulerQuery(ps: seq<RegistrationPeriod>, now: int)
    ensures ClosableRows(CloseAll(ps, now).0, now) == []
  {
  }
}

=== FILE: formation_controller.dfy ===
/**
 * The institution service's formation controller: store, update, publish
 * and archive, as their effect on the stored formations. Request validation
 * (types, lengths, the establishment's existence) is one boolean outcome;
 * what the model keeps is which keys survive validation. The slug function
 * is a parameter. A formation id that does not resolve answers 404.
 */
module FormationController {
  import opened Wrappers
  import opened InstitutionModels

  datatype Catalog = Catalog(formations: map<nat, Formation>, nextId: nat)

  datatype ControllerError = NotFound | Unprocessable

  datatype Outcome = Outcome(catalog: Catalog, result: Result<Formation, ControllerError>)

  /** Keys the store request validates; anything else in the body is dropped. */
  const StoreKeys: set<string> := {"establishment_id", "title", "description", "objectives", "target_audience",
                                   "prerequisites", "duration_hours", "capacity", "price", "image_url"}

  /** Keys the update request validates: neither the status nor the establishment. */
  const UpdateKeys: set<string> := {"title", "description", "objectives", "target_audience",
                                    "prerequisites", "duration_hours", "capacity", "price", "image_url"}

  /** The part of a request body that survives validation. */
  function Validated(body: map<string, string>, keys: set<string>): (v: map<string, string>)
    ensures v.Keys == body.Keys * keys
    ensures forall k :: k in v ==> v[k] == body[k]
  {
    map k | k in body && k in keys :: body[k]
  }

  /** Creates a draft formation; a status in the body is ignored. */
  function Store(c: Catalog, body: map<string, string>, valid: bool, slug: string -> string): (o: Outcome)
    ensures o.result.Failure? ==> o.catalog == c && o.result.error == Unprocessable
    ensures o.result.Success? <==> valid && "establishment_id" in body && "title" in body
    ensures o.result.Success? ==>
              && Status(o.result.value) == Some(StatusDraft)
              && o.result.value.id == c.nextId
              && o.catalog.formations == c.formations[c.nextId := o.result.value]
              && o.catalog.nextId > c.nextId
              && (forall k :: k in body && k in StoreKeys ==> k in o.result.value.attributes && o.result.value.attributes[k] == body[k])
              && (forall k :: k in o.result.value.attributes ==> k in StoreKeys || k == "slug" || k == "status")
              && "slug" in o.result.value.attributes && o.result.value.attributes["slug"] == slug(body["title"])
  {
    if !valid || "establishment_id" !in body || "title" !in body then Outcome(c, Failure(Unprocessable))
    else
      var attrs := Validated(body, StoreKeys)["slug" := slug(body["title"])]["status" := StatusDraft];
      var f := Formation(c.nextId, attrs);
      Outcome(Catalog(c.formations[c.nextId := f], c.nextId + 1), Success(f))
  }

  /** Writes the validated keys (and a new slug when the title changes). */
  function Update(c: Catalog, id: nat, body: map<string, string>, valid: bool, slug: string -> string): (o: Outcome)
    ensures id !in c.formations ==> o.result == Failure(NotFound)
    ensures o.result.Failure? ==> o.catalog == c
    ensures o.result.Success? <==> id in c.formations && valid
    ensures o.result.Success? ==>
              var before := c.formations[id].attributes;
              var after := o.result.value.attributes;
              && o.catalog.formations == c.formations[id := o.result.value]
              && Status(o.result.value) == Status(c.formations[id])
              && (forall k :: k in body && k in UpdateKeys ==> k in after && after[k] == body[k])
              // Every attribute the body does not send is kept, the slug too unless a title is sent.
              && (forall k :: k in before && !(k in body && k in UpdateKeys) && !(k == "slug" && "title" in body) ==>
                    k in after && after[k] == before[k])
              && after.Keys <= before.Keys + UpdateKeys + {"slug"}
              && after.Keys == before.Keys + body.Keys * UpdateKeys + (if "title" in body then {"slug"} else {})
              // A new title brings a new slug; without one the slug is kept.
              && ("title" in body ==> "slug" in after && after["slug"] == slug(body["title"]))
              && ("title" !in body ==> forall k :: k in before && k !in UpdateKeys ==> k in after && after[k] == before[k])
  {
    if id !in c.formations then Outcome(c, Failure(NotFound))
    else if !valid then Outcome(c, Failure(Unprocessable))
    else
      var f := c.formations[id];
      var v0 := Validated(body, UpdateKeys);
      var v := if "title" in v0 then v0["slug" := slug(v0["title"])] else v0;
      assert v.Keys == body.Keys * UpdateKeys + (if "title" in body then {"slug"} else {});
      var g := f.(attributes := f.attributes + v);
      Outcome(c.(formations := c.formations[id := g]), Success(g))
  }

  /** Publishes any formation that is not archived. */
  function Publish(c: Catalog, id: nat): (o: Outcome)
    ensures id !in c.formations ==> o.result == Failure(NotFound)
    ensures o.result.Failure? ==> o.catalog == c
    ensures id in c.formations && Status(c.formations[id]) == Some(StatusArchived) ==> o.result == Failure(Unprocessable)
    ensures o.result.Success? <==> id in c.formations && Status(c.formations[id]) != Some(StatusArchived)
    ensures o.result.Success? ==>
              && Status(o.result.value) == Some(StatusPublished)
              && o.result.value.attributes - {"status"} == c.formations[id].attributes - {"status"}
              && o.catalog.formations == c.formations[id := o.result.value]
  {
    if id !in c.formations then Outcome(c, Failure(NotFound))
    else
      var f := c.formations[id];
      if Status(f) == Some(StatusArchived) then Outcome(c, Failure(Unprocessable))
      else
        var g := f.(attributes := f.attributes["status" := StatusPublished]);
        Outcome(c.(formations := c.formations[id := g]), Success(g))
  }

  /** Archives a formation whatever its status. */
  function Archive(c: Catalog, id: nat): (o: Outcome)
    ensures o.result.Success? <==> id in c.formations
    ensures o.result.Failure? ==> o.catalog == c && o.result.error == NotFound
    ensures o.result.Success? ==>
              && Status(o.result.value) == Some(StatusArchived)
              && o.result.value.attributes - {"status"} == c.formations[id].attributes - {"status"}
              && o.catalog.formations == c.formations[id := o.result.value]
  {
    if id !in c.formations then Outcome(c, Failure(NotFound))
    else
      var f := c.formations[id];
      var g := f.(attributes := f.attributes["status" := StatusArchived]);
      Outcome(c.(formations := c.formations[id := g]), Success(g))
  }

  /** Publishing twice is publishing once: a second call changes nothing. */
  lemma PublishIdempotent(c: Catalog, id: nat)
    requires Publish(c, id).result.Success?
    ensures Publish(Publish(c, id).catalog, id) == Publish(c, id)
  {
    var g := Publish(c, id).result.value;
    assert g.attributes["status" := StatusPublished] == g.attributes;
  }

  /** Once archived, a formation stays archived: publish is refused, archive is a no-op. */
  lemma ArchivedIsFinal(c: Catalog, id: nat)
    requires Archive(c, id).result.Success?
    ensures Publish(Archive(c, id).catalog, id).result == Failure(Unprocessable)
    ensures Archive(Archive(c, id).catalog, id) == Archive(c, id)
  {
    var g := Archive(c, id).result.value;
    assert g.attributes["status" := StatusArchived] == g.attributes;
  }
}

=== FILE: institution_models.dfy ===
/**
 * The institution service's two Eloquent models. A formation is kept as
 * its attribute bag (attribute name to value), as Eloquent holds it, so
 * that which keys a controller may write is explicit. A registration period
 * is a typed record; dates are integer timestamps and `now` is a parameter.
 */
module InstitutionModels {
  import opened Wrappers
  import opened Subsequences

  const StatusDraft: string := "draft"
  const StatusPublished: string := "published"
  const StatusArchived: string := "archived"

  /** The status values `getStatuses` lists. */
  function Statuses(): (r: seq<string>)
    ensures |r| == 3
    ensures forall x :: x in r <==> x == StatusDraft || x == StatusPublished || x == StatusArchived
  {
    [StatusDraft, StatusPublished, StatusArchived]
  }

  datatype Formation = Formation(id: nat, attributes: map<string, string>)

  /** The formation's status attribute; `None` when the attribute is unset. */
  function Status(f: Formation): Option<string>
  {
    if "status" in f.attributes then Some(f.attributes["status"]) else None
  }

  /** The published scope: the formations whose status is published, in order. */
  function ScopePublished(fs: seq<Formation>): (r: seq<Formation>)
    ensures IsSubsequence(r, fs)
    ensures forall f :: f in r <==> f in fs && Status(f) == Some(StatusPublished)
    // Every published formation is kept as often as it occurs.
    ensures forall f {:trigger multiset(r)[f]} :: multiset(r)[f] == if Status(f) == Some(StatusPublished) then multiset(fs)[f] else 0
    decreases |fs|
  {
    if |fs| == 0 then []
    else
      MultisetOfCons(fs);
      if Status(fs[0]) == Some(StatusPublished) then [fs[0]] + ScopePublished(fs[1..])
      else ScopePublished(fs[1..])
  }

  /** Scoping an already scoped list changes nothing. */
  lemma {:induction false} ScopePublishedIdempotent(fs: seq<Formation>)
    ensures ScopePublished(ScopePublished(fs)) == ScopePublished(fs)
    decreases |fs|
  {
    if |fs| > 0 {
      ScopePublishedIdempotent(fs[1..]);
      var rest := ScopePublished(fs[1..]);
      if Status(fs[0]) == Some(StatusPublished) {
        assert ([fs[0]] + rest)[1..] == rest;
      }
    }
  }

  datatype RegistrationPeriod = RegistrationPeriod(
    id: nat,
    formationId: nat,
    startDate: int,
    endDate: int,
    isOpen: bool,
    autoClose: bool,
    /** `None` stands for a null column: no limit. */
    maxApplications: Option<int>,
    currentApplications: int,
    notes: Option<string>)

  /** Whether the period accepts registrations at `now`. */
  predicate IsCurrentlyOpen(p: RegistrationPeriod, now: int)
  {
    if !p.isOpen then false else p.startDate <= now && now <= p.endDate
  }

  /** Whether another application fits. */
  predicate HasCapacity(p: RegistrationPeriod)
  {
    if p.maxApplications.None? then true else p.currentApplications < p.maxApplications.value
  }

  /** Adds one application, without looking at the capacity. */
  function IncrementApplications(p: RegistrationPeriod): (q: RegistrationPeriod)
    ensures q.currentApplications == p.currentApplications + 1
    ensures q.(currentApplications := p.currentApplications) == p
  {
    p.(currentApplications := p.currentApplications + 1)
  }

  /** Whether the formation (given its registration period, if any) takes registrations at `now`. */
  predicate IsRegistrationOpen(period: Option<RegistrationPeriod>, now: int)
  {
    if period.None? || !period.value.isOpen then false
    else period.value.startDate <= now && now <= period.value.endDate
  }

  /** The open-window test: closed when the flag is off, and otherwise open
      exactly between the start and end dates, both inclusive. */
  lemma CurrentlyOpenIff(p: RegistrationPeriod, now: int)
    ensures !p.isOpen ==> !IsCurrentlyOpen(p, now)
    ensures p.isOpen ==> (IsCurrentlyOpen(p, now) <==> p.startDate <= now <= p.endDate)
  {
  }

  /** The capacity test: always room without a limit, else room while below it. */
  lemma HasCapacityIff(p: RegistrationPeriod)
    ensures p.maxApplications.None? ==> HasCapacity(p)
    ensures p.maxApplications.Some? ==> (HasCapacity(p) <==> p.currentApplications < p.maxApplications.value)
  {
  }

  /** The formation's own test agrees with the period's: no period means closed. */
  lemma RegistrationOpenAgreesWithPeriod(period: Option<RegistrationPeriod>, now: int)
    ensures period.None? ==> !IsRegistrationOpen(period, now)
    ensures period.Some? ==> (IsRegistrationOpen(period, now) <==> IsCurrentlyOpen(period.value, now))
  {
  }

  /** Incrementing never checks capacity: a full period goes over its limit. */
  lemma IncrementIgnoresCapacity(p: RegistrationPeriod)
    requires p.maxApplications.Some? && !HasCapacity(p)
    ensures IncrementApplications(p).currentApplications > p.maxApplications.value
    ensures !HasCapacity(IncrementApplications(p))
  {
  }
}

=== FILE: notifications.dfy ===
/**
 * The notification service: idempotent creation of an e-mail notification,
 * and the send step a worker runs for it, with its retry schedule and dead
 * lettering.
 *
 * The collections are sequences and a notification's id is its position.
 * Whether the template exists and what the mailer (and the renderer before
 * it) did are parameters, as is the current time in milliseconds. Messages
 * published to the broker are appended to `published`.
 */
module Notifications {
  import opened Wrappers

  /** The number of send attempts after which a notification is given up. */
  const MaxAttempts: nat := 5

  /** Seconds to wait before the retry that follows the n-th attempt (n = 1, 2, ...). */
  const DelaysSeconds: seq<nat> := [30, 120, 600, 3600, 6 * 3600]

  const DefaultLanguage: string := "fr"
  const SendFailed: string := "SEND_FAILED"
  const TemplateNotFound: string := "TEMPLATE_NOT_FOUND"

  /**
   * The retry delay after `attemptCount` attempts. The source indexes the
   * table at `min(attemptCount - 1, 4)`; below 1 that index is negative,
   * the lookup is undefined and the resulting date is invalid: `None` here.
   */
  function RetryDelay(attemptCount: int): (d: Option<nat>)
    ensures d.None? <==> attemptCount < 1
    ensures 1 <= attemptCount <= |DelaysSeconds| ==> d == Some(DelaysSeconds[attemptCount - 1])
    // Past the end of the table the last delay, six hours, repeats.
    ensures attemptCount >= |DelaysSeconds| ==> d == Some(21600)
  {
    var i := if attemptCount - 1 < |DelaysSeconds| - 1 then attemptCount - 1 else |DelaysSeconds| - 1;
    if i < 0 then None else Some(DelaysSeconds[i])
  }

  /** The time of the next attempt, in milliseconds. */
  function NextAttemptAt(attemptCount: int, nowMs: int): (t: Option<int>)
    ensures t.Some? <==> attemptCount >= 1
    ensures t.Some? ==> nowMs + 30000 <= t.value <= nowMs + 21600000
    // The delay is given in seconds and the clock counts milliseconds.
    ensures t.Some? ==> t.value == nowMs + RetryDelay(attemptCount).value * 1000
  {
    match RetryDelay(attemptCount)
    case None => None
    case Some(delay) => Some(nowMs + delay * 1000)
  }

  /** The delays never shrink as attempts accumulate. */
  lemma RetryDelayMonotone(a: int, b: int)
    requires 1 <= a <= b
    ensures RetryDelay(a).value <= RetryDelay(b).value
  {
  }

  // ---- JavaScript's String.prototype.trim ----

  /** The characters ECMAScript counts as white space or line terminators. */
  const JsSpaces: set<char> := {
    '\t', '\n', '\U{000B}', '\U{000C}', '\r', ' ', '\U{00A0}', '\U{1680}',
    '\U{2000}', '\U{2001}', '\U{2002}', '\U{2003}', '\U{2004}', '\U{2005}',
    '\U{2006}', '\U{2007}', '\U{2008}', '\U{2009}', '\U{200A}',
    '\U{2028}', '\U{2029}', '\U{202F}', '\U{205F}', '\U{3000}', '\U{FEFF}'}

  predicate IsJsSpace(c: char)
  {
    c in JsSpaces
  }

  /** The first index at or after `i` that is not white space, or |s|. */
  function SkipLeading(s: string, i: nat): (j: nat)
    requires i <= |s|
    ensures i <= j <= |s|
    ensures forall k :: i <= k < j ==> IsJsSpace(s[k])
    ensures j < |s| ==> !IsJsSpace(s[j])
    decreases |s| - i
  {
    if i < |s| && IsJsSpace(s[i]) then SkipLeading(s, i + 1) else i
  }

  /** The end, at or below `j` and not below `lo`, of the span left once trailing white space is dropped. */
  function SkipTrailing(s: string, lo: nat, j: nat): (k: nat)
    requires lo <= j <= |s|
    ensures lo <= k <= j
    ensures forall m :: k <= m < j ==> IsJsSpace(s[m])
    ensures k > lo ==> !IsJsSpace(s[k - 1])
    decreases j
  {
    if j > lo && IsJsSpace(s[j - 1]) then SkipTrailing(s, lo, j - 1) else j
  }

  /** The bounds of what trimming keeps: only white space lies outside them, and none at either end inside. */
  function TrimSpan(s: string): (r: (nat, nat))
    ensures r.0 <= r.1 <= |s|
    ensures forall i :: 0 <= i < r.0 ==> IsJsSpace(s[i])
    ensures forall i :: r.1 <= i < |s| ==> IsJsSpace(s[i])
    ensures r.0 < r.1 ==> !IsJsSpace(s[r.0]) && !IsJsSpace(s[r.1 - 1])
  {
    var lo := SkipLeading(s, 0);
    (lo, SkipTrailing(s, lo, |s|))
  }

  function Trim(s: string): (t: string)
    ensures |t| <= |s|
    ensures |t| > 0 ==> !IsJsSpace(t[0]) && !IsJsSpace(t[|t| - 1])
    // Only white space is removed, so a string trims to nothing exactly when it is all white space.
    ensures t == [] <==> forall i :: 0 <= i < |s| ==> IsJsSpace(s[i])
    // The result is the string itself with only outer white space cut off.
    ensures exists lo, hi :: 0 <= lo <= hi <= |s| && t == s[lo..hi]
              && (forall i :: 0 <= i < lo ==> IsJsSpace(s[i]))
              && (forall i :: hi <= i < |s| ==> IsJsSpace(s[i]))
  {
    var span := TrimSpan(s);
    TrimSpanEmptyIff(s);
    var t := s[span.0..span.1];
    assert |t| > 0 ==> t[0] == s[span.0] && t[|t| - 1] == s[span.1 - 1];
    t
  }

  /** The kept span is empty exactly when the whole string is white space. */
  lemma TrimSpanEmptyIff(s: string)
    ensures TrimSpan(s).0 == TrimSpan(s).1 <==> forall i :: 0 <= i < |s| ==> IsJsSpace(s[i])
  {
    var span := TrimSpan(s);
    if span.0 == span.1 {
      forall i | 0 <= i < |s| ensures IsJsSpace(s[i]) {
        if i >= span.1 { }
      }
    } else {
      assert !IsJsSpace(s[span.0]);
    }
  }

  /** A trimmed string has nothing left to trim. */
  lemma TrimIdempotent(s: string)
    ensures Trim(Trim(s)) == Trim(s)
  {
    var t := Trim(s);
    if |t| > 0 {
      assert SkipLeading(t, 0) == 0;
      assert SkipTrailing(t, 0, |t|) == |t|;
      assert t[0..|t|] == t;
    }
  }

  /** The language a new notification is stored with: the trimmed request value, or French when it is absent or blank. */
  function Language(requested: Option<string>): (lang: string)
    ensures lang != []
    ensures requested.None? ==> lang == DefaultLanguage
    ensures requested.Some? && Trim(requested.value) != [] ==> lang == Trim(requested.value)
    ensures requested.Some? && Trim(requested.value) == [] ==> lang == DefaultLanguage
  {
    if requested.None? then DefaultLanguage
    else
      var t := Trim(requested.value);
      if t == [] then DefaultLanguage else t
  }

  // ---- Notifications, attempts and the broker ----

  datatype NotificationStatus = Pending | Retrying | Sent | Dead

  datatype Notification = Notification(
    idempotencyKey: string,
    templateKey: string,
    language: string,
    recipient: string,
    payload: map<string, string>,
    channel: string,
    status: NotificationStatus,
    attemptCount: nat,
    nextAttemptAt: Option<int>,
    correlationId: string)

  datatype ErrorType = Transient | Permanent

  /** The stored response of an attempt: a failure reason, or whether the mailer accepted the message. */
  datatype Response = Reason(text: string) | Delivered(ok: bool)

  datatype Attempt = Attempt(
    notificationId: nat,
    attemptNo: nat,
    errorType: Option<ErrorType>,
    errorMessage: Option<string>,
    response: Response)

  datatype Message =
    | SendEmail(notificationId: nat, correlationId: string, scheduledAt: Option<int>)
    | DeadLetter(notificationId: nat, correlationId: string, reason: string)

  datatype Store = Store(notifications: seq<Notification>, attempts: seq<Attempt>, published: seq<Message>)

  datatype CreateRequest = CreateRequest(
    templateKey: string, language: Option<string>, recipient: string, payload: map<string, string>)

  /** What creation answers: the notification's id and its current status. */
  datatype Created = Created(id: nat, status: NotificationStatus)

  /** What the mailer did: delivered, or failed with an error whose message may be missing. */
  datatype SendOutcome = Accepted | Rejected(message: Option<string>)

  /** The position of the first notification with the idempotency key. */
  function FindByKey(ns: seq<Notification>, key: string): (r: Option<nat>)
    ensures r.Some? ==> r.value < |ns| && ns[r.value].idempotencyKey == key
    ensures r.Some? ==> forall j :: 0 <= j < r.value ==> ns[j].idempotencyKey != key
    ensures r.None? <==> forall j :: 0 <= j < |ns| ==> ns[j].idempotencyKey != key
    decreases |ns|
  {
    if |ns| == 0 then None
    else if ns[0].idempotencyKey == key then Some(0)
    else
      match FindByKey(ns[1..], key)
      case None => None
      case Some(j) => Some(j + 1)
  }

  /**
   * Creates a pending notification and queues its first send, unless one
   * already exists for the idempotency key, in which case nothing changes
   * and the existing one is reported.
   */
  function Create(s: Store, req: CreateRequest, idempotencyKey: string, correlationId: string): (r: (Store, Created))
    ensures FindByKey(s.notifications, idempotencyKey).Some? ==>
              var id := FindByKey(s.notifications, idempotencyKey).value;
              r == (s, Created(id, s.notifications[id].status))
    ensures FindByKey(s.notifications, idempotencyKey).None? ==>
              var id := |s.notifications|;
              && r.1 == Created(id, Pending)
              && r.0.notifications == s.notifications + [Notification(
                   idempotencyKey, req.templateKey, Language(req.language), req.recipient, req.payload,
                   "email", Pending, 0, None, correlationId)]
              && r.0.attempts == s.attempts
              && r.0.published == s.published + [SendEmail(id, correlationId, None)]
  {
    match FindByKey(s.notifications, idempotencyKey)
    case Some(id) => (s, Created(id, s.notifications[id].status))
    case None =>
      var id := |s.notifications|;
      var n := Notification(idempotencyKey, req.templateKey, Language(req.language), req.recipient,
                            req.payload, "email", Pending, 0, None, correlationId);
      (Store(s.notifications + [n], s.attempts, s.published + [SendEmail(id, correlationId, None)]),
       Created(id, Pending))
  }

  predicate Terminal(st: NotificationStatus)
  {
    st == Sent || st == Dead
  }

  /**
   * One send attempt for notification `id`: nothing happens when it does not
   * exist or is already sent or dead; a missing template kills it at once;
   * otherwise the mailer's outcome is recorded and the notification is sent,
   * retried later, or (at the fifth attempt) dead-lettered.
   */
  function ProcessSend(s: Store, id: nat, templateFound: bool, outcome: SendOutcome, nowMs: int): (t: Store)
    // Missing, sent and dead notifications are left alone.
    ensures id >= |s.notifications| || Terminal(s.notifications[id].status) ==> t == s
    ensures |t.notifications| == |s.notifications|
    // Only notification `id` changes, and the logs only grow.
    ensures forall j :: 0 <= j < |s.notifications| && j != id ==> t.notifications[j] == s.notifications[j]
    ensures |s.attempts| <= |t.attempts| <= |s.attempts| + 1 && t.attempts[..|s.attempts|] == s.attempts
    ensures |s.published| <= |t.published| <= |s.published| + 1 && t.published[..|s.published|] == s.published
    ensures id < |s.notifications| && !Terminal(s.notifications[id].status) ==>
              var n := s.notifications[id];
              var m := t.notifications[id];
              && |t.attempts| == |s.attempts| + 1
              && t.attempts[|s.attempts|].notificationId == id
              && t.attempts[|s.attempts|].attemptNo == n.attemptCount + 1
              && m.(status := n.status, attemptCount := n.attemptCount, nextAttemptAt := n.nextAttemptAt) == n
              && (!templateFound ==>
                    && m.status == Dead && m.attemptCount == n.attemptCount && m.nextAttemptAt.None?
                    && t.attempts[|s.attempts|].errorType == Some(Permanent)
                    && t.attempts[|s.attempts|].errorMessage == Some(TemplateNotFound)
                    && t.published == s.published)
              && (templateFound && outcome.Accepted? ==>
                    && m.status == Sent && m.attemptCount == n.attemptCount + 1 && m.nextAttemptAt.None?
                    && t.attempts[|s.attempts|].response == Delivered(true)
                    && t.published == s.published)
              && (templateFound && outcome.Rejected? ==>
                    var reason := outcome.message.GetOr(SendFailed);
                    && m.attemptCount == n.attemptCount + 1
                    && t.attempts[|s.attempts|].errorType == Some(Transient)
                    && t.attempts[|s.attempts|].errorMessage == Some(reason)
                    && (n.attemptCount + 1 >= MaxAttempts ==>
                          && m.status == Dead && m.nextAttemptAt.None?
                          && t.published == s.published + [DeadLetter(id, n.correlationId, reason)])
                    && (n.attemptCount + 1 < MaxAttempts ==>
                          && m.status == Retrying
                          && m.nextAttemptAt == NextAttemptAt(n.attemptCount + 1, nowMs)
                          && m.nextAttemptAt.Some?
                          && t.published == s.published + [SendEmail(id, n.correlationId, m.nextAttemptAt)]))
  {
    if id >= |s.notifications| then s
    else
      var n := s.notifications[id];
      if Terminal(n.status) then s
      else if !templateFound then
        var a := Attempt(id, n.attemptCount + 1, Some(Permanent), Some(TemplateNotFound),
                         Reason("Template " + n.templateKey + " (" + n.language + ") not found"));
        var m := n.(status := Dead, nextAttemptAt := None);
        Store(s.notifications[id := m], s.attempts + [a], s.published)
      else
        var attemptNo := n.attemptCount + 1;
        match outcome
        case Accepted =>
          var a := Attempt(id, attemptNo, None, None, Delivered(true));
          var m := n.(status := Sent, attemptCount := attemptNo, nextAttemptAt := None);
          Store(s.notifications[id := m], s.attempts + [a], s.published)
        case Rejected(message) =>
          var reason := message.GetOr(SendFailed);
          var a := Attempt(id, attemptNo, Some(Transient), Some(reason), Delivered(false));
          if attemptNo >= MaxAttempts then
            var m := n.(status := Dead, attemptCount := attemptNo, nextAttemptAt := None);
            Store(s.notifications[id := m], s.attempts + [a], s.published + [DeadLetter(id, n.correlationId, reason)])
          else
            var next := NextAttemptAt(attemptNo, nowMs);
            var m := n.(status := Retrying, attemptCount := attemptNo, nextAttemptAt := next);
            Store(s.notifications[id := m], s.attempts + [a], s.published + [SendEmail(id, n.correlationId, next)])
  }

  // ---- Invariants ----

  /** How many recorded attempts belong to notification `id`. */
  function AttemptsFor(attempts: seq<Attempt>, id: nat): (k: nat)
    ensures k <= |attempts|
    ensures k == 0 <==> forall j :: 0 <= j < |attempts| ==> attempts[j].notificationId != id
    ensures k == |attempts| <==> forall j :: 0 <= j < |attempts| ==> attempts[j].notificationId == id
  {
    if |attempts| == 0 then 0
    else
      var init := attempts[..|attempts| - 1];
      assert forall j :: 0 <= j < |init| ==> init[j] == attempts[j];
      AttemptsFor(init, id) + (if attempts[|attempts| - 1].notificationId == id then 1 else 0)
  }

  lemma {:induction false} AttemptsForSnoc(attempts: seq<Attempt>, a: Attempt, id: nat)
    ensures AttemptsFor(attempts + [a], id) == AttemptsFor(attempts, id) + (if a.notificationId == id then 1 else 0)
  {
    assert (attempts + [a])[..|attempts|] == attempts;
  }

  /**
   * What the service keeps true of its store: idempotency keys are unique;
   * a live notification has had fewer than five attempts, each of them
   * recorded, and has a next attempt time exactly when it is retrying; a
   * finished one has no next attempt time and at most one attempt more on
   * record than it counts (the attempt that found no template); every
   * attempt belongs to a notification and is numbered from 1 to 5.
   */
  ghost predicate Valid(s: Store)
  {
    && (forall i, j :: 0 <= i < j < |s.notifications| ==>
          s.notifications[i].idempotencyKey != s.notifications[j].idempotencyKey)
    && (forall i :: 0 <= i < |s.notifications| ==> ValidNotification(s, i))
    && (forall k :: 0 <= k < |s.attempts| ==>
          s.attempts[k].notificationId < |s.notifications| && 1 <= s.attempts[k].attemptNo <= MaxAttempts)
  }

  ghost predicate ValidNotification(s: Store, i: nat)
    requires i < |s.notifications|
  {
    var n := s.notifications[i];
    && n.attemptCount <= MaxAttempts
    && (n.nextAttemptAt.Some? <==> n.status == Retrying)
    && (!Terminal(n.status) ==> n.attemptCount < MaxAttempts && AttemptsFor(s.attempts, i) == n.attemptCount)
    && (Terminal(n.status) ==>
          n.attemptCount <= AttemptsFor(s.attempts, i) <= n.attemptCount + 1)
  }

  lemma CreateKeepsValid(s: Store, req: CreateRequest, key: string, correlationId: string)
    requires Valid(s)
    ensures Valid(Create(s, req, key, correlationId).0)
  {
    var t := Create(s, req, key, correlationId).0;
    if FindByKey(s.notifications, key).None? {
      var id := |s.notifications|;
      forall i | 0 <= i < |t.notifications|
        ensures ValidNotification(t, i)
      {
        if i != id {
          assert ValidNotification(s, i);
        }
      }
    }
  }

  lemma ProcessSendKeepsValid(s: Store, id: nat, templateFound: bool, outcome: SendOutcome, nowMs: int)
    requires Valid(s)
    ensures Valid(ProcessSend(s, id, templateFound, outcome, nowMs))
  {
    var t := ProcessSend(s, id, templateFound, outcome, nowMs);
    if id < |s.notifications| && !Terminal(s.notifications[id].status) {
      var a := t.attempts[|s.attempts|];
      assert t.attempts == s.attempts + [a];
      assert ValidNotification(s, id);
      forall i | 0 <= i < |t.notifications|
        ensures ValidNotification(t, i)
      {
        AttemptsForSnoc(s.attempts, a, i);
        assert ValidNotification(s, i);
      }
      forall k | 0 <= k < |t.attempts|
        ensures t.attempts[k].notificationId < |t.notifications| && 1 <= t.attempts[k].attemptNo <= MaxAttempts
      {
        if k < |s.attempts| {
          assert t.attempts[k] == s.attempts[k];
        }
      }
    }
  }

  /** A fresh notification survives four failed sends and is dead-lettered on the fifth. */
  lemma FifthFailureDeadLetters(s: Store, id: nat, message: Option<string>, nowMs: int)
    requires Valid(s)
    requires id < |s.notifications| && !Terminal(s.notifications[id].status)
    ensures var t := ProcessSend(s, id, true, Rejected(message), nowMs);
            t.notifications[id].status == Dead <==> s.notifications[id].attemptCount == MaxAttempts - 1
    ensures var t := ProcessSend(s, id, true, Rejected(message), nowMs);
            t.notifications[id].status == Dead ==> t.published[|t.published| - 1].DeadLetter?
  {
    assert ValidNotification(s, id);
  }

  /** Sending is over once a notification is sent or dead: further sends change nothing. */
  lemma TerminalIsAbsorbing(s: Store, id: nat, templateFound: bool, outcome: SendOutcome, nowMs: int,
                            templateFound2: bool, outcome2: SendOutcome, nowMs2: int)
    requires id < |s.notifications|
    ensures var t := ProcessSend(s, id, templateFound, outcome, nowMs);
            Terminal(t.notifications[id].status) ==>
              ProcessSend(t, id, templateFound2, outcome2, nowMs2) == t
  {
  }

  /** Creating twice with the same key creates once. */
  lemma CreateIdempotent(s: Store, req: CreateRequest, req2: CreateRequest, key: string, c1: string, c2: string)
    ensures var (t, r) := Create(s, req, key, c1);
            Create(t, req2, key, c2) == (t, r)
  {
    var (t, r) := Create(s, req, key, c1);
    if FindByKey(s.notifications, key).None? {
      assert t.notifications[|s.notifications|].idempotencyKey == key;
    }
  }
}

=== FILE: pagination.dfy ===
/**
 * The web application's pagination bar: which page numbers it shows, with
 * an ellipsis standing for pages left out, and when its previous and next
 * buttons are disabled. Pages are numbered from 1.
 */
module Pagination {
  import opened Wrappers

  datatype Item = Page(n: int) | Ellipsis

  /** The largest page count shown in full. */
  const FullLimit: int := 7

  /** Pages `from` .. `from + count - 1`. */
  function PageRun(from: int, count: nat): (r: seq<Item>)
    ensures |r| == count
    ensures forall i :: 0 <= i < count ==> r[i] == Page(from + i)
  {
    seq(count, i requires 0 <= i < count => Page(from + i))
  }

  /** The items of the bar; no bar at all when there is at most one page. */
  function Visible(current: int, total: int): (r: Option<seq<Item>>)
    ensures r.None? <==> total <= 1
    ensures 1 < total <= FullLimit ==> r == Some(PageRun(1, total))
  {
    if total <= 1 then None
    else if total <= FullLimit then Some(PageRun(1, total))
    else if current <= 3 then Some(PageRun(1, 5) + [Ellipsis, Page(total)])
    else if current >= total - 2 then Some([Page(1), Ellipsis] + PageRun(total - 4, 5))
    else Some([Page(1), Ellipsis, Page(current - 1), Page(current), Page(current + 1), Ellipsis, Page(total)])
  }

  /** Pages appear in strictly increasing order, between 1 and `total`. */
  ghost predicate Ordered(items: seq<Item>, total: int)
  {
    && (forall i :: 0 <= i < |items| && items[i].Page? ==> 1 <= items[i].n <= total)
    && (forall i, j :: 0 <= i < j < |items| && items[i].Page? && items[j].Page? ==> items[i].n < items[j].n)
  }

  /** Every ellipsis sits between two pages and stands for at least one page left out. */
  ghost predicate EllipsesHidePages(items: seq<Item>)
  {
    forall i :: 0 <= i < |items| && items[i].Ellipsis? ==>
      0 < i < |items| - 1 && items[i - 1].Page? && items[i + 1].Page? && items[i + 1].n - items[i - 1].n >= 2
  }

  /** The shape every shown bar has: at most seven items, first and last page at the ends, in order, each ellipsis hiding something. */
  ghost predicate WellShaped(items: seq<Item>, total: int)
  {
    && 0 < |items| <= FullLimit
    && items[0] == Page(1) && items[|items| - 1] == Page(total)
    && Ordered(items, total)
    && EllipsesHidePages(items)
  }

  /**
   * What the bar promises whenever it is shown: it is well shaped, and it
   * shows the current page whenever that is a real page.
   */
  lemma VisibleShape(current: int, total: int)
    requires total > 1
    ensures WellShaped(Visible(current, total).value, total)
    ensures 1 <= current <= total ==> Page(current) in Visible(current, total).value
  {
    var items := Visible(current, total).value;
    if total <= FullLimit {
      FullShape(total);
      if 1 <= current <= total {
        assert items[current - 1] == Page(current);
      }
    } else if current <= 3 {
      SevenShape(items, total, 1, 2, 3, 4, 5, 0, total);
    } else if current >= total - 2 {
      SevenShape(items, total, 1, 0, total - 4, total - 3, total - 2, total - 1, total);
    } else {
      SevenShape(items, total, 1, 0, current - 1, current, current + 1, 0, total);
    }
  }

  lemma FullShape(total: int)
    requires 1 < total <= FullLimit
    ensures WellShaped(PageRun(1, total), total)
  {
  }

  /**
   * A seven-item bar whose second and sixth items are either the page
   * between their neighbours or an ellipsis (marked by 0) between pages
   * two or more apart.
   */
  lemma SevenShape(items: seq<Item>, total: int, a: int, b: int, c: int, d: int, e: int, f: int, g: int)
    requires a == 1 && g == total && 1 < c < d < e < total
    requires b == 0 ==> c - a >= 2
    requires b != 0 ==> a < b < c
    requires f == 0 ==> g - e >= 2
    requires f != 0 ==> e < f < g
    requires items == [Page(a), if b == 0 then Ellipsis else Page(b), Page(c), Page(d), Page(e),
                       if f == 0 then Ellipsis else Page(f), Page(g)]
    ensures WellShaped(items, total)
  {
    assert forall i :: 0 <= i < 7 && items[i].Page? ==> items[i].n == [a, b, c, d, e, f, g][i];
  }

  /** Without an ellipsis the bar lists every page, which happens exactly when there are at most seven. */
  lemma NoEllipsisIffShort(current: int, total: int)
    requires total > 1
    ensures Ellipsis !in Visible(current, total).value <==> total <= FullLimit
  {
    var items := Visible(current, total).value;
    if total > FullLimit {
      assert items[|items| - 2] == Ellipsis || items[1] == Ellipsis;
    }
  }

  /** The previous button is disabled on the first page. */
  predicate PrevDisabled(current: int)
  {
    current == 1
  }

  /** The next button is disabled on the last page. */
  predicate NextDisabled(current: int, total: int)
  {
    current == total
  }

  /** From a page in range, an enabled button always leads to a page in range. */
  lemma ButtonsStayInRange(current: int, total: int)
    requires 1 <= current <= total
    ensures !PrevDisabled(current) ==> 1 <= current - 1 <= total
    ensures !NextDisabled(current, total) ==> 1 <= current + 1 <= total
    ensures PrevDisabled(current) <==> current - 1 < 1
    ensures NextDisabled(current, total) <==> current + 1 > total
  {
  }
}

=== FILE: program_formation.dfy ===
/**
 * The program service's formation handler: a formation moves
 * BROUILLON -> PUBLIEE -> ARCHIVEE, registrations are managed only while it
 * is PUBLIEE, candidates are eligible inside the registration window, and a
 * sweep closes the registrations whose closing date has passed. Dates are
 * integer timestamps; `now` is a parameter. Every database write is an
 * outcome parameter.
 */
module ProgramFormation {
  import opened Wrappers

  datatype Etat = Brouillon | Publiee | Archivee

  datatype Formation = Formation(
    id: nat,
    etablissementId: string,
    coordinateurId: string,
    titre: string,
    description: string,
    etat: Etat,
    dateOuverture: Option<int>,
    dateFermeture: Option<int>,
    inscriptionsOuvertes: bool)

  datatype Store = Store(formations: map<nat, Formation>, nextId: nat)

  datatype FormationError =
    | InvalidInput
    | NotFound
    /** 409; carries the current state when the handler reports it. */
    | Conflict(etatActuel: Option<Etat>)
    | PersistenceError

  datatype Outcome = Outcome(store: Store, result: Result<Formation, FormationError>)

  datatype CreateInput = CreateInput(etablissementId: string, coordinateurId: string, titre: string, description: string)

  /** Dates that failed to bind or to parse as RFC 3339 are `None`. */
  datatype RegistrationsInput = RegistrationsInput(dateOuverture: Option<int>, dateFermeture: Option<int>, inscriptionsOuvertes: Option<bool>)

  /** Stores `f` under `id` when the write succeeds; otherwise nothing changes. */
  function Save(s: Store, id: nat, f: Formation, persistOk: bool): Outcome
  {
    if persistOk then Outcome(s.(formations := s.formations[id := f]), Success(f))
    else Outcome(s, Failure(PersistenceError))
  }

  /** True when `o` returned `f` and stored it under `id`, changing nothing else. */
  ghost predicate StoredOnly(s: Store, o: Outcome, id: nat, f: Formation)
  {
    o.result == Success(f) && o.store == s.(formations := s.formations[id := f])
  }

  function Create(s: Store, input: CreateInput, persistOk: bool): (o: Outcome)
    ensures o.result.Failure? ==> o.store == s
    ensures o.result.Success? <==>
              input.etablissementId != "" && input.coordinateurId != "" && input.titre != "" && persistOk
    ensures o.result.Success? ==>
              && o.result.value.etat == Brouillon
              // The stored formation carries the request's data.
              && o.result.value.etablissementId == input.etablissementId
              && o.result.value.coordinateurId == input.coordinateurId
              && o.result.value.titre == input.titre
              && o.result.value.description == input.description
              && !o.result.value.inscriptionsOuvertes
              && o.result.value.dateOuverture.None? && o.result.value.dateFermeture.None?
              && o.result.value.id == s.nextId
              && o.store.formations == s.formations[s.nextId := o.result.value]
              && o.store.nextId > s.nextId
  {
    if input.etablissementId == "" || input.coordinateurId == "" || input.titre == "" then
      Outcome(s, Failure(InvalidInput))
    else if !persistOk then Outcome(s, Failure(PersistenceError))
    else
      var f := Formation(s.nextId, input.etablissementId, input.coordinateurId, input.titre,
                         input.description, Brouillon, None, None, false);
      Outcome(Store(s.formations[s.nextId := f], s.nextId + 1), Success(f))
  }

  /** Replaces the title and/or description, only those provided. */
  function Update(s: Store, id: nat, titre: Option<string>, description: Option<string>, persistOk: bool): (o: Outcome)
    ensures o.result.Failure? ==> o.store == s
    ensures id !in s.formations ==> o.result == Failure(NotFound)
    ensures o.result.Success? <==> id in s.formations && persistOk
    ensures o.result.Success? ==>
              var f := s.formations[id];
              var g := o.result.value;
              && StoredOnly(s, o, id, g)
              && g.titre == titre.GetOr(f.titre)
              && g.description == description.GetOr(f.description)
              && g.(titre := f.titre, description := f.description) == f
  {
    if id !in s.formations then Outcome(s, Failure(NotFound))
    else
      var f := s.formations[id];
      var f1 := if titre.Some? then f.(titre := titre.value) else f;
      var f2 := if description.Some? then f1.(description := description.value) else f1;
      Save(s, id, f2, persistOk)
  }

  function Publish(s: Store, id: nat, persistOk: bool): (o: Outcome)
    ensures o.result.Failure? ==> o.store == s
    ensures id !in s.formations ==> o.result == Failure(NotFound)
    ensures id in s.formations && s.formations[id].etat != Brouillon ==>
              o.result == Failure(Conflict(Some(s.formations[id].etat)))
    ensures o.result.Success? <==> id in s.formations && s.formations[id].etat == Brouillon && persistOk
    ensures o.result.Success? ==> StoredOnly(s, o, id, s.formations[id].(etat := Publiee))
  {
    if id !in s.formations then Outcome(s, Failure(NotFound))
    else
      var f := s.formations[id];
      if f.etat != Brouillon then Outcome(s, Failure(Conflict(Some(f.etat))))
      else Save(s, id, f.(etat := Publiee), persistOk)
  }

  function Archive(s: Store, id: nat, persistOk: bool): (o: Outcome)
    ensures o.result.Failure? ==> o.store == s
    ensures id !in s.formations ==> o.result == Failure(NotFound)
    ensures id in s.formations && s.formations[id].etat != Publiee ==>
              o.result == Failure(Conflict(Some(s.formations[id].etat)))
    ensures o.result.Success? <==> id in s.formations && s.formations[id].etat == Publiee && persistOk
    ensures o.result.Success? ==>
              StoredOnly(s, o, id, s.formations[id].(etat := Archivee, inscriptionsOuvertes := false))
  {
    if id !in s.formations then Outcome(s, Failure(NotFound))
    else
      var f := s.formations[id];
      if f.etat != Publiee then Outcome(s, Failure(Conflict(Some(f.etat))))
      else Save(s, id, f.(etat := Archivee, inscriptionsOuvertes := false), persistOk)
  }

  /** Sets both dates and the open flag (true when absent). The state is
      checked before the request body is read, so a formation that is not
      PUBLIEE answers 409 even to a malformed body. */
  function UpdateRegistrations(s: Store, id: nat, input: RegistrationsInput, persistOk: bool): (o: Outcome)
    ensures o.result.Failure? ==> o.store == s
    ensures id !in s.formations ==> o.result == Failure(NotFound)
    ensures id in s.formations && s.formations[id].etat != Publiee ==> o.result == Failure(Conflict(None))
    ensures o.result.Success? <==>
              && id in s.formations && s.formations[id].etat == Publiee
              && input.dateOuverture.Some? && input.dateFermeture.Some? && persistOk
    ensures o.result.Success? ==>
              StoredOnly(s, o, id, s.formations[id].(dateOuverture := input.dateOuverture,
                                                 dateFermeture := input.dateFermeture,
                                                 inscriptionsOuvertes := input.inscriptionsOuvertes.GetOr(true)))
  {
    if id !in s.formations then Outcome(s, Failure(NotFound))
    else
      var f := s.formations[id];
      if f.etat != Publiee then Outcome(s, Failure(Conflict(None)))
      else if input.dateOuverture.None? || input.dateFermeture.None? then Outcome(s, Failure(InvalidInput))
      else
        var ouvertes := if input.inscriptionsOuvertes.Some? then input.inscriptionsOuvertes.value else true;
        Save(s, id, f.(dateOuverture := input.dateOuverture, dateFermeture := input.dateFermeture,
                   inscriptionsOuvertes := ouvertes), persistOk)
  }

  /** Closes registrations whatever the state. */
  function CloseRegistrations(s: Store, id: nat, persistOk: bool): (o: Outcome)
    ensures o.result.Failure? ==> o.store == s
    ensures o.result.Success? <==> id in s.formations && persistOk
    ensures o.result.Success? ==> StoredOnly(s, o, id, s.formations[id].(inscriptionsOuvertes := false))
  {
    if id !in s.formations then Outcome(s, Failure(NotFound))
    else Save(s, id, s.formations[id].(inscriptionsOuvertes := false), persistOk)
  }

  /** Every handler that changes a formation, with its request and write outcome. */
  datatype Request =
    | CreateReq(input: CreateInput, persistOk: bool)
    | UpdateReq(id: nat, titre: Option<string>, description: Option<string>, persistOk: bool)
    | PublishReq(id: nat, persistOk: bool)
    | ArchiveReq(id: nat, persistOk: bool)
    | UpdateRegistrationsReq(id: nat, registrations: RegistrationsInput, persistOk: bool)
    | CloseRegistrationsReq(id: nat, persistOk: bool)

  function Handle(s: Store, r: Request): Outcome
  {
    match r
    case CreateReq(input, ok) => Create(s, input, ok)
    case UpdateReq(id, t, d, ok) => Update(s, id, t, d, ok)
    case PublishReq(id, ok) => Publish(s, id, ok)
    case ArchiveReq(id, ok) => Archive(s, id, ok)
    case UpdateRegistrationsReq(id, input, ok) => UpdateRegistrations(s, id, input, ok)
    case CloseRegistrationsReq(id, ok) => CloseRegistrations(s, id, ok)
  }

  /** Ids lie below `nextId`, and registrations are only ever open on a PUBLIEE formation. */
  ghost predicate OpenOnlyWhenPublished(s: Store)
  {
    && (forall id :: id in s.formations ==> id < s.nextId)
    && (forall id :: id in s.formations && s.formations[id].inscriptionsOuvertes ==> s.formations[id].etat == Publiee)
  }

  function EtatRank(e: Etat): nat
  {
    match e
    case Brouillon => 0
    case Publiee => 1
    case Archivee => 2
  }

  /** No handler reopens registrations outside PUBLIEE, and no handler moves
      a formation back along BROUILLON -> PUBLIEE -> ARCHIVEE. */
  lemma HandlePreservesLifecycle(s: Store, r: Request)
    requires OpenOnlyWhenPublished(s)
    ensures OpenOnlyWhenPublished(Handle(s, r).store)
    ensures forall id :: id in s.formations ==>
              id in Handle(s, r).store.formations
              && EtatRank(s.formations[id].etat) <= EtatRank(Handle(s, r).store.formations[id].etat)
  {
  }

  /** Whether a candidate may register at `now`. An absent date puts no bound. */
  predicate Eligible(f: Formation, now: int)
  {
    var eligible := f.etat == Publiee && f.inscriptionsOuvertes;
    var eligible := if f.dateOuverture.Some? && now < f.dateOuverture.value then false else eligible;
    if f.dateFermeture.Some? && now > f.dateFermeture.value then false else eligible
  }

  /** Eligibility holds iff the formation is PUBLIEE with registrations open
      and `now` lies in the window; both bounds are inclusive. */
  lemma EligibleIff(f: Formation, now: int)
    ensures Eligible(f, now) <==>
              && f.etat == Publiee
              && f.inscriptionsOuvertes
              && (forall d :: f.dateOuverture == Some(d) ==> d <= now)
              && (forall d :: f.dateFermeture == Some(d) ==> now <= d)
  {
  }

  function CheckEligibility(s: Store, id: nat, now: int): (r: Result<bool, FormationError>)
    ensures id !in s.formations <==> r == Failure(NotFound)
    ensures r.Success? ==> (r.value <==> Eligible(s.formations[id], now))
  {
    if id !in s.formations then Failure(NotFound) else Success(Eligible(s.formations[id], now))
  }

  /** Open registrations whose closing date lies strictly before `now`. */
  predicate Expired(f: Formation, now: int)
  {
    f.inscriptionsOuvertes && f.dateFermeture.Some? && now > f.dateFermeture.value
  }

  /** An archived formation, or one whose window has expired, accepts nobody. */
  lemma NotEligibleWhenArchivedOrExpired(f: Formation, now: int)
    ensures f.etat == Archivee ==> !Eligible(f, now)
    ensures Expired(f, now) ==> !Eligible(f, now)
  {
  }

  /** The row the sweep stores for `f`. */
  function SweepRow(f: Formation, now: int, failed: set<nat>): Formation
  {
    if Expired(f, now) && f.id !in failed then f.(inscriptionsOuvertes := false) else f
  }

  /** Indices below `n` at which two row lists differ. */
  ghost function ChangedRows(a: seq<Formation>, b: seq<Formation>, n: nat): set<nat>
    requires n <= |a| && n <= |b|
  {
    set j: nat | j < n && a[j] != b[j]
  }

  lemma ChangedRowsStep(a: seq<Formation>, g: Formation, b: seq<Formation>)
    requires |a| < |b|
    ensures ChangedRows(a + [g], b, |a| + 1) == ChangedRows(a, b, |a|) + (if g != b[|a|] then {|a|} else {})
    ensures |ChangedRows(a + [g], b, |a| + 1)| == |ChangedRows(a, b, |a|)| + (if g != b[|a|] then 1 else 0)
  {
    var a' := a + [g];
    assert forall j :: 0 <= j < |a| ==> a'[j] == a[j];
    assert ChangedRows(a', b, |a| + 1) == ChangedRows(a, b, |a|) + (if g != b[|a|] then {|a|} else {});
  }

  /** The scheduler sweep over the formations listed by the store, in that
      order. A row whose update fails (its id in `failed`) keeps its stored
      value and is not counted. */
  method CloseExpiredRegistrations(fetchOk: bool, formations: seq<Formation>, now: int, failed: set<nat>)
    returns (stored: seq<Formation>, closed: Result<nat, FormationError>)
    ensures !fetchOk ==> stored == formations && closed == Failure(PersistenceError)
    ensures fetchOk ==> closed.Success?
    ensures |stored| == |formations|
    // Exactly the expired rows whose update succeeds are closed; every other row is untouched.
    ensures forall i :: 0 <= i < |formations| ==>
              if fetchOk && Expired(formations[i], now) && formations[i].id !in failed
              then stored[i] == formations[i].(inscriptionsOuvertes := false)
              else stored[i] == formations[i]
    // No successfully updated row is still expired.
    ensures forall i :: 0 <= i < |formations| && fetchOk && formations[i].id !in failed ==> !Expired(stored[i], now)
    // The reported count is the number of rows that changed.
    ensures closed.Success? ==> closed.value == |ChangedRows(stored, formations, |formations|)|
  {
    if !fetchOk {
      return formations, Failure(PersistenceError);
    }
    stored := [];
    var count := 0;
    var i := 0;
    while i < |formations|
      invariant 0 <= i <= |formations|
      invariant |stored| == i
      invariant forall j :: 0 <= j < i ==> stored[j] == SweepRow(formations[j], now, failed)
      invariant count == |ChangedRows(stored, formations, i)|
    {
      var f := formations[i];
      var g := f;
      if Expired(f, now) && f.id !in failed {
        g := f.(inscriptionsOuvertes := false);
        count := count + 1;
      }
      ChangedRowsStep(stored, g, formations);
      stored := stored + [g];
      i := i + 1;
    }
    closed := Success(count);
  }
}

=== FILE: registration_period_controller.dfy ===
/**
 * The institution service's registration-period controller. Periods are
 * kept as the ordered rows of their table, so that the one-period-per-
 * formation rule is an invariant the upsert has to keep rather than a
 * property of the representation. A formation id that does not resolve
 * answers 404, and so does every operation on a formation without a period.
 */
module RegistrationPeriodController {
  import opened Wrappers
  import opened Subsequences
  import opened InstitutionModels

  datatype PeriodStore = PeriodStore(formations: map<nat, Formation>, periods: seq<RegistrationPeriod>, nextId: nat)

  /** 404, 422, and the 500 the framework answers when a handler throws. */
  datatype ControllerError = NotFound | Unprocessable | ServerError

  datatype Outcome = Outcome(store: PeriodStore, result: Result<RegistrationPeriod, ControllerError>)

  /** The store request. An optional nullable field is `None` when absent
      and `Some(None)` when sent as null. */
  datatype PeriodInput = PeriodInput(
    startDate: Option<int>,
    endDate: Option<int>,
    isOpen: Option<bool>,
    autoClose: Option<bool>,
    maxApplications: Option<Option<int>>,
    notes: Option<Option<string>>)

  /** Index of the formation's period: the first row that names it. */
  function FindPeriod(ps: seq<RegistrationPeriod>, formationId: nat): (r: Option<nat>)
    ensures r.Some? ==> r.value < |ps| && ps[r.value].formationId == formationId
    ensures r.Some? ==> forall j :: 0 <= j < r.value ==> ps[j].formationId != formationId
    ensures r.None? ==> forall j :: 0 <= j < |ps| ==> ps[j].formationId != formationId
    decreases |ps|
  {
    if |ps| == 0 then None
    else if ps[0].formationId == formationId then Some(0)
    else match FindPeriod(ps[1..], formationId)
      case None => None
      case Some(k) => Some(k + 1)
  }

  /** The formation's period, as the `registrationPeriod` relation loads it. */
  function PeriodOf(s: PeriodStore, formationId: nat): Option<RegistrationPeriod>
  {
    match FindPeriod(s.periods, formationId)
    case None => None
    case Some(k) => Some(s.periods[k])
  }

  /** Each formation has at most one period. */
  ghost predicate AtMostOnePeriodEach(ps: seq<RegistrationPeriod>)
  {
    forall i, j :: 0 <= i < j < |ps| ==> ps[i].formationId != ps[j].formationId
  }

  /** The store request's validation: a start date not before today, an end
      date strictly after it, and a limit of at least one when one is given. */
  predicate ValidInput(input: PeriodInput, today: int)
  {
    && input.startDate.Some? && input.startDate.value >= today
    && input.endDate.Some? && input.endDate.value > input.startDate.value
    && (input.maxApplications.Some? && input.maxApplications.value.Some? ==> input.maxApplications.value.value >= 1)
  }

  /** Creates or replaces the formation's period. Omitted flags default to
      true and the application counter restarts at zero; an omitted limit or
      note keeps the stored one (and is null on a new row). */
  function StorePeriod(s: PeriodStore, formationId: nat, input: PeriodInput, today: int): (o: Outcome)
    ensures formationId !in s.formations ==> o.result == Failure(NotFound)
    ensures o.result.Failure? ==> o.store == s
    ensures o.result.Success? <==> formationId in s.formations && ValidInput(input, today)
    ensures o.result.Success? ==>
              var p := o.result.value;
              && p.formationId == formationId
              && input.startDate == Some(p.startDate) && input.endDate == Some(p.endDate)
              && p.startDate < p.endDate
              && p.isOpen == input.isOpen.GetOr(true)
              && p.autoClose == input.autoClose.GetOr(true)
              && p.currentApplications == 0
              // An omitted limit or note keeps the stored value; a new row starts with null.
              && p.maxApplications == input.maxApplications.GetOr(
                   if PeriodOf(s, formationId).Some? then PeriodOf(s, formationId).value.maxApplications else None)
              && p.notes == input.notes.GetOr(
                   if PeriodOf(s, formationId).Some? then PeriodOf(s, formationId).value.notes else None)
              && PeriodOf(o.store, formationId) == Some(p)
              && o.store.formations == s.formations
    // Upsert: an existing period is replaced in place, otherwise one row is appended.
    ensures o.result.Success? && PeriodOf(s, formationId).Some? ==>
              |o.store.periods| == |s.periods| && o.result.value.id == PeriodOf(s, formationId).value.id
    ensures o.result.Success? && PeriodOf(s, formationId).None? ==>
              o.store.periods == s.periods + [o.result.value]
    // Other formations' periods are untouched.
    ensures forall f :: f != formationId ==> PeriodOf(o.store, f) == PeriodOf(s, f)
  {
    if formationId !in s.formations then Outcome(s, Failure(NotFound))
    else if !ValidInput(input, today) then Outcome(s, Failure(Unprocessable))
    else
      var start := input.startDate.value;
      var end := input.endDate.value;
      var isOpen := input.isOpen.GetOr(true);
      var autoClose := input.autoClose.GetOr(true);
      match FindPeriod(s.periods, formationId)
      case Some(k) =>
        var existing := s.periods[k];
        var p := existing.(startDate := start, endDate := end, isOpen := isOpen, autoClose := autoClose,
                      maxApplications := input.maxApplications.GetOr(existing.maxApplications),
                      notes := input.notes.GetOr(existing.notes),
                      currentApplications := 0);
        var s' := s.(periods := s.periods[k := p]);
        FindPeriodAfterUpdate(s.periods, k, p, formationId);
        Outcome(s', Success(p))
      case None =>
        var p := RegistrationPeriod(s.nextId, formationId, start, end, isOpen, autoClose,
                                    input.maxApplications.GetOr(None), 0, input.notes.GetOr(None));
        var s' := s.(periods := s.periods + [p], nextId := s.nextId + 1);
        FindPeriodAfterAppend(s.periods, p, formationId);
        Outcome(s', Success(p))
  }

  /** Replacing a formation's own row, keeping its formation, moves no lookup. */
  lemma FindPeriodAfterUpdate(ps: seq<RegistrationPeriod>, k: nat, p: RegistrationPeriod, formationId: nat)
    requires FindPeriod(ps, formationId) == Some(k)
    requires p.formationId == formationId
    ensures forall f :: FindPeriod(ps[k := p], f) == FindPeriod(ps, f)
  {
    forall f
      ensures FindPeriod(ps[k := p], f) == FindPeriod(ps, f)
    {
      FindPeriodSame(ps, ps[k := p], f);
    }
  }

  /** Two row lists that name the same formations at every index give the same lookups. */
  lemma {:induction false} FindPeriodSame(ps: seq<RegistrationPeriod>, qs: seq<RegistrationPeriod>, f: nat)
    requires |ps| == |qs|
    requires forall j :: 0 <= j < |ps| ==> ps[j].formationId == qs[j].formationId
    ensures FindPeriod(ps, f) == FindPeriod(qs, f)
    decreases |ps|
  {
    if |ps| > 0 {
      FindPeriodSame(ps[1..], qs[1..], f);
    }
  }

  /** Appending a row for a formation without one leaves every lookup but its own alone. */
  lemma FindPeriodAfterAppend(ps: seq<RegistrationPeriod>, p: RegistrationPeriod, formationId: nat)
    requires FindPeriod(ps, formationId).None?
    requires p.formationId == formationId
    ensures FindPeriod(ps + [p], formationId) == Some(|ps|)
    ensures forall f :: f != formationId ==> FindPeriod(ps + [p], f) == FindPeriod(ps, f)
  {
    forall f
      ensures FindPeriod(ps + [p], f) == (if f == formationId then Some(|ps|) else FindPeriod(ps, f))
    {
      FindPeriodAppend(ps, p, f);
    }
  }

  lemma {:induction false} FindPeriodAppend(ps: seq<RegistrationPeriod>, p: RegistrationPeriod, f: nat)
    ensures FindPeriod(ps + [p], f) ==
              match FindPeriod(ps, f)
              case Some(k) => Some(k)
              case None => if p.formationId == f then Some(|ps|) else None
    decreases |ps|
  {
    if |ps| > 0 {
      assert (ps + [p])[1..] == ps[1..] + [p];
      FindPeriodAppend(ps[1..], p, f);
    } else {
      assert ps + [p] == [p];
    }
  }

  /** The upsert never gives a formation a second period. */
  lemma StoreKeepsOnePeriodEach(s: PeriodStore, formationId: nat, input: PeriodInput, today: int)
    requires AtMostOnePeriodEach(s.periods)
    ensures AtMostOnePeriodEach(StorePeriod(s, formationId, input, today).store.periods)
  {
  }

  /** Sets the period's open flag; nothing else changes. */
  function SetOpen(s: PeriodStore, formationId: nat, open: bool): (o: Outcome)
    ensures o.result.Failure? ==> o.store == s && o.result.error == NotFound
    ensures o.result.Success? <==> formationId in s.formations && PeriodOf(s, formationId).Some?
    ensures o.result.Success? ==>
              && o.result.value == PeriodOf(s, formationId).value.(isOpen := open)
              && PeriodOf(o.store, formationId) == Some(o.result.value)
              && |o.store.periods| == |s.periods|
              && o.store.formations == s.formations && o.store.nextId == s.nextId
              && (forall f :: f != formationId ==> PeriodOf(o.store, f) == PeriodOf(s, f))
  {
    if formationId !in s.formations then Outcome(s, Failure(NotFound))
    else match FindPeriod(s.periods, formationId)
      case None => Outcome(s, Failure(NotFound))
      case Some(k) =>
        var p := s.periods[k].(isOpen := open);
        FindPeriodAfterUpdate(s.periods, k, p, formationId);
        Outcome(s.(periods := s.periods[k := p]), Success(p))
  }

  /** The open endpoint: the period becomes open, and no other period changes. */
  function Open(s: PeriodStore, formationId: nat): (o: Outcome)
    ensures o.result.Success? <==> formationId in s.formations && PeriodOf(s, formationId).Some?
    ensures o.result.Failure? ==> o.store == s && o.result.error == NotFound
    ensures o.result.Success? ==>
              && o.result.value.isOpen
              && o.result.value == PeriodOf(s, formationId).value.(isOpen := true)
              && PeriodOf(o.store, formationId) == Some(o.result.value)
              && |o.store.periods| == |s.periods|
              && o.store.formations == s.formations && o.store.nextId == s.nextId
              && (forall f :: f != formationId ==> PeriodOf(o.store, f) == PeriodOf(s, f))
  {
    SetOpen(s, formationId, true)
  }

  /** The close endpoint: the period becomes closed, and no other period changes. */
  function Close(s: PeriodStore, formationId: nat): (o: Outcome)
    ensures o.result.Success? <==> formationId in s.formations && PeriodOf(s, formationId).Some?
    ensures o.result.Failure? ==> o.store == s && o.result.error == NotFound
    ensures o.result.Success? ==>
              && !o.result.value.isOpen
              && o.result.value == PeriodOf(s, formationId).value.(isOpen := false)
              && PeriodOf(o.store, formationId) == Some(o.result.value)
              && |o.store.periods| == |s.periods|
              && o.store.formations == s.formations && o.store.nextId == s.nextId
              && (forall f :: f != formationId ==> PeriodOf(o.store, f) == PeriodOf(s, f))
  {
    SetOpen(s, formationId, false)
  }

  /** What the scheduler's close endpoint answers: the formation and the closing instant. */
  datatype ClosedReply = ClosedReply(formationId: nat, closedAt: string)

  /** The scheduler's close endpoint. It closes the period whatever becomes of
      the notification sent afterwards (its failure is only logged), so that
      call is not a parameter. `closedAt` defaults to now. */
  function CloseViaScheduler(s: PeriodStore, formationId: nat, closedAt: Option<string>, now: string)
    : (r: (PeriodStore, Result<ClosedReply, ControllerError>))
    ensures r.1.Success? <==> formationId in s.formations && PeriodOf(s, formationId).Some?
    ensures r.1.Failure? ==> r.0 == s && r.1.error == NotFound
    ensures r.1.Success? ==>
              && r.1.value == ClosedReply(formationId, closedAt.GetOr(now))
              && PeriodOf(r.0, formationId) == Some(PeriodOf(s, formationId).value.(isOpen := false))
              && r.0.formations == s.formations
              && (forall f :: f != formationId ==> PeriodOf(r.0, f) == PeriodOf(s, f))
  {
    var o := SetOpen(s, formationId, false);
    match o.result
    case Failure(e) => (o.store, Failure(e))
    case Success(_) => (o.store, Success(ClosedReply(formationId, closedAt.GetOr(now))))
  }

  /** Open then close leaves the period closed; open after close reopens it. */
  lemma OpenCloseOverride(s: PeriodStore, formationId: nat)
    requires formationId in s.formations && PeriodOf(s, formationId).Some?
    ensures !PeriodOf(Close(Open(s, formationId).store, formationId).store, formationId).value.isOpen
    ensures PeriodOf(Open(Close(s, formationId).store, formationId).store, formationId).value.isOpen
  {
  }

  /** The counter endpoint. */
  function IncrementApplicationsFor(s: PeriodStore, formationId: nat): (o: Outcome)
    ensures o.result.Failure? ==> o.store == s && o.result.error == NotFound
    ensures o.result.Success? <==> formationId in s.formations && PeriodOf(s, formationId).Some?
    ensures o.result.Success? ==>
              && o.result.value.currentApplications == PeriodOf(s, formationId).value.currentApplications + 1
              // Only the counter changes, on this period alone.
              && o.result.value == IncrementApplications(PeriodOf(s, formationId).value)
              && PeriodOf(o.store, formationId) == Some(o.result.value)
              && |o.store.periods| == |s.periods|
              && o.store.formations == s.formations && o.store.nextId == s.nextId
              && (forall f :: f != formationId ==> PeriodOf(o.store, f) == PeriodOf(s, f))
  {
    if formationId !in s.formations then Outcome(s, Failure(NotFound))
    else match FindPeriod(s.periods, formationId)
      case None => Outcome(s, Failure(NotFound))
      case Some(k) =>
        var p := IncrementApplications(s.periods[k]);
        FindPeriodAfterUpdate(s.periods, k, p, formationId);
        Outcome(s.(periods := s.periods[k := p]), Success(p))
  }

  datatype StatusReport = StatusReport(isOpen: bool, hasCapacity: bool)

  /** The status endpoint: closed and full when no period is configured. */
  function CheckStatus(s: PeriodStore, formationId: nat, now: int): (r: Result<StatusReport, ControllerError>)
    ensures r.Failure? <==> formationId !in s.formations
    ensures r.Success? && PeriodOf(s, formationId).None? ==> r.value == StatusReport(false, false)
    ensures r.Success? && PeriodOf(s, formationId).Some? ==>
              && (r.value.isOpen <==> IsRegistrationOpen(PeriodOf(s, formationId), now))
              && (r.value.hasCapacity <==> HasCapacity(PeriodOf(s, formationId).value))
  {
    if formationId !in s.formations then Failure(NotFound)
    else match PeriodOf(s, formationId)
      case None => Success(StatusReport(false, false))
      case Some(p) => Success(StatusReport(IsCurrentlyOpen(p, now), HasCapacity(p)))
  }

  /** Periods the scheduler should close: open, auto-closing, ended strictly before `before`. */
  predicate Closable(p: RegistrationPeriod, before: int)
  {
    p.isOpen && p.autoClose && p.endDate < before
  }

  /** The closable rows, in table order. */
  function ClosableRows(ps: seq<RegistrationPeriod>, before: int): (r: seq<RegistrationPeriod>)
    ensures IsSubsequence(r, ps)
    ensures forall p :: p in r <==> p in ps && Closable(p, before)
    // Every closable row is kept as often as it occurs, and no other row is.
    ensures forall p {:trigger multiset(r)[p]} :: multiset(r)[p] == if Closable(p, before) then multiset(ps)[p] else 0
    ensures |r| <= |ps|
    decreases |ps|
  {
    if |ps| == 0 then []
    else
      MultisetOfCons(ps);
      if Closable(ps[0], before) then [ps[0]] + ClosableRows(ps[1..], before)
      else ClosableRows(ps[1..], before)
  }

  /** The query builder's limit: a negative value is ignored. */
  function ApplyLimit<T>(rows: seq<T>, limit: int): (r: seq<T>)
    ensures limit >= 0 ==> |r| <= limit
    ensures |r| <= |rows| && r == rows[..|r|]
    ensures |r| < |rows| ==> |r| == limit
  {
    if limit < 0 || |rows| <= limit then rows else rows[..limit]
  }

  /** What the scheduler receives for one period. */
  datatype ProgramToClose = ProgramToClose(formationId: nat, institutionId: string, closeDate: int)

  /** The formation's establishment id, cast to a string: a null column gives "". */
  function InstitutionOf(f: Formation): string
  {
    if "establishment_id" in f.attributes then f.attributes["establishment_id"] else ""
  }

  /** The number of rows the query's limit lets through (a negative limit is ignored). */
  function Selected(rows: nat, limit: int): nat
  {
    if limit < 0 || rows <= limit then rows else limit
  }

  /** The scheduler's query: `before` defaults to now and `limit` to 100.
      Each selected period answers its formation, that formation's
      establishment and its end date. A selected period whose formation does
      not load (it was soft-deleted) makes the establishment read fail, and
      the request answers 500. The query has no ordering clause, so the row
      order is the database's; the model takes table order. */
  function RegistrationsToClose(s: PeriodStore, before: Option<int>, limit: Option<int>, now: int)
    : (r: Result<seq<ProgramToClose>, ControllerError>)
    ensures var rows := ClosableRows(s.periods, before.GetOr(now));
            var n := Selected(|rows|, limit.GetOr(100));
            && n <= |rows|
            && (r.Failure? <==> exists i :: 0 <= i < n && rows[i].formationId !in s.formations)
            && (r.Failure? ==> r.error == ServerError)
            && (r.Success? ==>
                  && |r.value| == n
                  && forall i :: 0 <= i < n ==>
                       && r.value[i].formationId == rows[i].formationId
                       && r.value[i].institutionId == InstitutionOf(s.formations[rows[i].formationId])
                       && r.value[i].closeDate == rows[i].endDate)
  {
    var closable := ClosableRows(s.periods, before.GetOr(now));
    var rows := ApplyLimit(closable, limit.GetOr(100));
    if exists p :: p in rows && p.formationId !in s.formations then
      assert exists i :: 0 <= i < |rows| && rows[i].formationId !in s.formations;
      Failure(ServerError)
    else
      Success(seq(|rows|, i requires 0 <= i < |rows| => ToClose(s, rows[i])))
  }

  /** Every program handed to the scheduler names a stored period that is closable at the reference date. */
  lemma ScheduledPeriodsAreClosable(s: PeriodStore, before: Option<int>, limit: Option<int>, now: int, i: int)
    requires RegistrationsToClose(s, before, limit, now).Success?
    requires 0 <= i < |RegistrationsToClose(s, before, limit, now).value|
    ensures var r := RegistrationsToClose(s, before, limit, now).value[i];
            exists p :: p in s.periods && Closable(p, before.GetOr(now))
                        && r.formationId == p.formationId && r.closeDate == p.endDate
  {
    var rows := ClosableRows(s.periods, before.GetOr(now));
    assert rows[i] in rows;
  }

  /** One row of the scheduler's answer. */
  function ToClose(s: PeriodStore, p: RegistrationPeriod): (r: ProgramToClose)
    requires p.formationId in s.formations
    ensures r.formationId == p.formationId && r.closeDate == p.endDate
    ensures r.institutionId == InstitutionOf(s.formations[p.formationId])
  {
    ProgramToClose(p.formationId, InstitutionOf(s.formations[p.formationId]), p.endDate)
  }
}

=== FILE: reporting_access.dfy ===
/**
 * Who may read which reports: a user's roles, the institution they belong
 * to (if any) and the programs they are attached to.
 */
module ReportingAccess {
  import opened Wrappers

  datatype Role = SuperAdmin | InstitutionAdmin | Coordinator

  datatype UserContext = UserContext(
    userId: string,
    roles: seq<Role>,
    institutionId: Option<string>,
    programIds: seq<string>)

  predicate IsSuperAdmin(u: UserContext) { SuperAdmin in u.roles }

  predicate IsInstitutionAdmin(u: UserContext) { InstitutionAdmin in u.roles }

  predicate IsCoordinator(u: UserContext) { Coordinator in u.roles }

  /** A super administrator reaches every institution; an institution administrator only their own. */
  predicate CanAccessInstitution(u: UserContext, institutionId: string)
  {
    IsSuperAdmin(u) || (IsInstitutionAdmin(u) && u.institutionId == Some(institutionId))
  }

  /** A super administrator reaches every program; a coordinator or an institution administrator only the programs listed for them. */
  predicate CanAccessProgram(u: UserContext, programId: string)
  {
    || IsSuperAdmin(u)
    || (IsCoordinator(u) && programId in u.programIds)
    || (IsInstitutionAdmin(u) && programId in u.programIds)
  }

  /** The access rules, read from the roles held. */
  lemma AccessByRole(u: UserContext, institutionId: string, programId: string)
    ensures SuperAdmin in u.roles ==> CanAccessInstitution(u, institutionId) && CanAccessProgram(u, programId)
    ensures u.roles == [] ==> !CanAccessInstitution(u, institutionId) && !CanAccessProgram(u, programId)
    // Without the super administrator role, access needs a matching attachment.
    ensures SuperAdmin !in u.roles ==>
              (CanAccessInstitution(u, institutionId) <==> InstitutionAdmin in u.roles && u.institutionId == Some(institutionId))
    ensures SuperAdmin !in u.roles ==>
              (CanAccessProgram(u, programId) <==>
                 (Coordinator in u.roles || InstitutionAdmin in u.roles) && programId in u.programIds)
  {
  }

  /** Program access does not follow from institution membership: only the listed programs count. */
  lemma InstitutionAdminNeedsProgramList(u: UserContext, programId: string)
    requires u.roles == [InstitutionAdmin] && u.institutionId.Some?
    ensures CanAccessInstitution(u, u.institutionId.value)
    ensures CanAccessProgram(u, programId) <==> programId in u.programIds
  {
  }
}

=== FILE: reporting_query.dfy ===
/**
 * A report query: optional filters on institution, program, date range and
 * academic year, built up one field at a time by copying.
 */
module ReportingQuery {
  import opened Wrappers

  datatype ReportQuery = ReportQuery(
    institutionId: Option<string>,
    programId: Option<string>,
    fromDate: Option<int>,
    toDate: Option<int>,
    academicYear: Option<string>)

  /** The query with no filter at all. */
  function Empty(): (q: ReportQuery)
    ensures q.institutionId.None? && q.programId.None? && q.fromDate.None? && q.toDate.None?
    ensures q.academicYear.None?
  {
    ReportQuery(None, None, None, None, None)
  }

  function WithInstitution(q: ReportQuery, institutionId: string): (r: ReportQuery)
    ensures r.institutionId == Some(institutionId)
    ensures r.(institutionId := q.institutionId) == q
  {
    q.(institutionId := Some(institutionId))
  }

  function WithProgram(q: ReportQuery, programId: string): (r: ReportQuery)
    ensures r.programId == Some(programId)
    ensures r.(programId := q.programId) == q
  {
    q.(programId := Some(programId))
  }

  function WithDateRange(q: ReportQuery, fromDate: int, toDate: int): (r: ReportQuery)
    ensures r.fromDate == Some(fromDate) && r.toDate == Some(toDate)
    ensures r.(fromDate := q.fromDate, toDate := q.toDate) == q
  {
    q.(fromDate := Some(fromDate), toDate := Some(toDate))
  }

  function WithAcademicYear(q: ReportQuery, academicYear: string): (r: ReportQuery)
    ensures r.academicYear == Some(academicYear)
    ensures r.(academicYear := q.academicYear) == q
  {
    q.(academicYear := Some(academicYear))
  }

  /** Builders that set different fields commute: all six pairs. */
  lemma BuildersCommute(q: ReportQuery, i: string, p: string, f: int, t: int, y: string)
    ensures WithProgram(WithInstitution(q, i), p) == WithInstitution(WithProgram(q, p), i)
    ensures WithDateRange(WithInstitution(q, i), f, t) == WithInstitution(WithDateRange(q, f, t), i)
    ensures WithAcademicYear(WithInstitution(q, i), y) == WithInstitution(WithAcademicYear(q, y), i)
    ensures WithDateRange(WithProgram(q, p), f, t) == WithProgram(WithDateRange(q, f, t), p)
    ensures WithAcademicYear(WithProgram(q, p), y) == WithProgram(WithAcademicYear(q, y), p)
    ensures WithAcademicYear(WithDateRange(q, f, t), y) == WithDateRange(WithAcademicYear(q, y), f, t)
  {
  }

  /** Of two calls of one builder, the last wins: for all four builders. */
  lemma LastBuilderWins(q: ReportQuery, i: string, i2: string, p: string, p2: string,
                        f: int, t: int, f2: int, t2: int, y: string, y2: string)
    ensures WithInstitution(WithInstitution(q, i), i2) == WithInstitution(q, i2)
    ensures WithProgram(WithProgram(q, p), p2) == WithProgram(q, p2)
    ensures WithDateRange(WithDateRange(q, f, t), f2, t2) == WithDateRange(q, f2, t2)
    ensures WithAcademicYear(WithAcademicYear(q, y), y2) == WithAcademicYear(q, y2)
  {
  }
}

=== FILE: reporting_repository.dfy ===
/**
 * The in-memory reporting repository: two lists of statistics filtered by a
 * report query. A text filter applies only when it is present and not the
 * empty string (an empty string is falsy in JavaScript); a date filter
 * applies whenever it is present.
 */
module ReportingRepository {
  import opened Wrappers
  import opened Subsequences
  import opened ReportingStats
  import opened ReportingQuery

  datatype Repository = Repository(enrollmentStats: seq<EnrollmentStats>, programStats: seq<ProgramStats>)

  /** Whether a text filter is in force. */
  predicate Active(filter: Option<string>)
  {
    filter.Some? && filter.value != ""
  }

  predicate MatchesEnrollment(q: ReportQuery, s: EnrollmentStats)
  {
    && (Active(q.institutionId) ==> s.institutionId == q.institutionId.value)
    && (Active(q.programId) ==> s.programId == q.programId.value)
    && (q.fromDate.Some? ==> s.periodStart >= q.fromDate.value)
    && (q.toDate.Some? ==> s.periodEnd <= q.toDate.value)
  }

  predicate MatchesProgram(q: ReportQuery, s: ProgramStats)
  {
    && (Active(q.institutionId) ==> s.institutionId == q.institutionId.value)
    && (Active(q.programId) ==> s.programId == q.programId.value)
    && (Active(q.academicYear) ==> s.academicYear == q.academicYear.value)
  }

  function FilterEnrollment(q: ReportQuery, xs: seq<EnrollmentStats>): (r: seq<EnrollmentStats>)
    ensures IsSubsequence(r, xs)
    ensures forall s :: s in r <==> s in xs && MatchesEnrollment(q, s)
    // As with Array.filter, every matching row is kept as often as it occurs.
    ensures forall s {:trigger multiset(r)[s]} :: multiset(r)[s] == if MatchesEnrollment(q, s) then multiset(xs)[s] else 0
    decreases |xs|
  {
    if |xs| == 0 then []
    else
      MultisetOfCons(xs);
      if MatchesEnrollment(q, xs[0]) then [xs[0]] + FilterEnrollment(q, xs[1..])
      else FilterEnrollment(q, xs[1..])
  }

  function FilterProgram(q: ReportQuery, xs: seq<ProgramStats>): (r: seq<ProgramStats>)
    ensures IsSubsequence(r, xs)
    ensures forall s :: s in r <==> s in xs && MatchesProgram(q, s)
    // As with Array.filter, every matching row is kept as often as it occurs.
    ensures forall s {:trigger multiset(r)[s]} :: multiset(r)[s] == if MatchesProgram(q, s) then multiset(xs)[s] else 0
    decreases |xs|
  {
    if |xs| == 0 then []
    else
      MultisetOfCons(xs);
      if MatchesProgram(q, xs[0]) then [xs[0]] + FilterProgram(q, xs[1..])
      else FilterProgram(q, xs[1..])
  }

  /** The stored enrollment statistics the query selects, in stored order. */
  function QueryEnrollmentStats(repo: Repository, q: ReportQuery): (r: seq<EnrollmentStats>)
    ensures IsSubsequence(r, repo.enrollmentStats)
    ensures forall s :: s in r <==> s in repo.enrollmentStats && MatchesEnrollment(q, s)
    ensures forall s {:trigger multiset(r)[s]} :: multiset(r)[s] == if MatchesEnrollment(q, s) then multiset(repo.enrollmentStats)[s] else 0
  {
    FilterEnrollment(q, repo.enrollmentStats)
  }

  /** The stored program statistics the query selects, in stored order. */
  function QueryProgramStats(repo: Repository, q: ReportQuery): (r: seq<ProgramStats>)
    ensures IsSubsequence(r, repo.programStats)
    ensures forall s :: s in r <==> s in repo.programStats && MatchesProgram(q, s)
    ensures forall s {:trigger multiset(r)[s]} :: multiset(r)[s] == if MatchesProgram(q, s) then multiset(repo.programStats)[s] else 0
  {
    FilterProgram(q, repo.programStats)
  }

  function SeedEnrollmentStats(repo: Repository, stats: seq<EnrollmentStats>): (r: Repository)
    ensures r.enrollmentStats == stats && r.programStats == repo.programStats
  {
    repo.(enrollmentStats := stats)
  }

  function SeedProgramStats(repo: Repository, stats: seq<ProgramStats>): (r: Repository)
    ensures r.programStats == stats && r.enrollmentStats == repo.enrollmentStats
  {
    repo.(programStats := stats)
  }

  /** The empty query (and one whose text filters are all empty strings) returns everything. */
  lemma {:induction false} UnfilteredReturnsAll(repo: Repository, q: ReportQuery)
    requires !Active(q.institutionId) && !Active(q.programId) && !Active(q.academicYear)
    requires q.fromDate.None? && q.toDate.None?
    ensures QueryEnrollmentStats(repo, q) == repo.enrollmentStats
    ensures QueryProgramStats(repo, q) == repo.programStats
  {
    FilterEnrollmentAll(q, repo.enrollmentStats);
    FilterProgramAll(q, repo.programStats);
  }

  lemma {:induction false} FilterEnrollmentAll(q: ReportQuery, xs: seq<EnrollmentStats>)
    requires forall i :: 0 <= i < |xs| ==> MatchesEnrollment(q, xs[i])
    ensures FilterEnrollment(q, xs) == xs
    decreases |xs|
  {
    if |xs| > 0 {
      FilterEnrollmentAll(q, xs[1..]);
      assert [xs[0]] + xs[1..] == xs;
    }
  }

  lemma {:induction false} FilterProgramAll(q: ReportQuery, xs: seq<ProgramStats>)
    requires forall i :: 0 <= i < |xs| ==> MatchesProgram(q, xs[i])
    ensures FilterProgram(q, xs) == xs
    decreases |xs|
  {
    if |xs| > 0 {
      FilterProgramAll(q, xs[1..]);
      assert [xs[0]] + xs[1..] == xs;
    }
  }

  /** The empty query selects everything. */
  lemma EmptyQueryReturnsAll(repo: Repository)
    ensures QueryEnrollmentStats(repo, Empty()) == repo.enrollmentStats
    ensures QueryProgramStats(repo, Empty()) == repo.programStats
  {
    UnfilteredReturnsAll(repo, Empty());
  }

  /** Scoping a query to a non-empty institution only returns that institution's rows. */
  lemma ScopedToInstitution(repo: Repository, q: ReportQuery, institutionId: string)
    requires institutionId != ""
    ensures forall s :: s in QueryEnrollmentStats(repo, WithInstitution(q, institutionId)) ==> s.institutionId == institutionId
    ensures forall s :: s in QueryProgramStats(repo, WithInstitution(q, institutionId)) ==> s.institutionId == institutionId
  {
  }

  /** Scoping a query to a non-empty program only returns that program's rows. */
  lemma ScopedToProgram(repo: Repository, q: ReportQuery, programId: string)
    requires programId != ""
    ensures forall s :: s in QueryEnrollmentStats(repo, WithProgram(q, programId)) ==> s.programId == programId
    ensures forall s :: s in QueryProgramStats(repo, WithProgram(q, programId)) ==> s.programId == programId
  {
  }

  /** Adding a filter never adds rows: the narrowed result is a subsequence of the wider one. */
  lemma {:induction false} NarrowingIsSubsequence(q: ReportQuery, institutionId: string, xs: seq<EnrollmentStats>)
    requires !Active(q.institutionId)
    ensures IsSubsequence(FilterEnrollment(WithInstitution(q, institutionId), xs), FilterEnrollment(q, xs))
    decreases |xs|
  {
    if |xs| > 0 {
      NarrowingIsSubsequence(q, institutionId, xs[1..]);
      var narrow := FilterEnrollment(WithInstitution(q, institutionId), xs);
      var wide := FilterEnrollment(q, xs);
      var narrowRest := FilterEnrollment(WithInstitution(q, institutionId), xs[1..]);
      var wideRest := FilterEnrollment(q, xs[1..]);
      if MatchesEnrollment(WithInstitution(q, institutionId), xs[0]) {
        assert narrow == [xs[0]] + narrowRest && wide == [xs[0]] + wideRest;
        assert narrow[1..] == narrowRest && wide[1..] == wideRest;
      } else if MatchesEnrollment(q, xs[0]) {
        assert wide[1..] == wideRest;
        SubsequenceOfTail(narrow, wide);
      }
    }
  }
}

=== FILE: reporting_service.dfy ===
/**
 * The reporting service: each report checks who is asking before it reads
 * the repository, and scopes the query to the institution or program it
 * authorised. A refusal is a failure carrying the thrown error's message.
 */
module ReportingService {
  import opened Wrappers
  import opened ReportingStats
  import opened ReportingAccess
  import opened ReportingQuery
  import opened ReportingRepository

  const GlobalDenied: string := "Access denied: only SuperAdmin can access global stats"
  const InstitutionRequired: string := "Institution ID required"
  const InstitutionDenied: string := "Access denied: insufficient permissions for this institution"
  const ProgramRequired: string := "Program ID required"
  const ProgramDenied: string := "Access denied: insufficient permissions for this program"

  /** The first of two optional values that is present, as the `??` operator picks it. */
  function Coalesce(first: Option<string>, second: Option<string>): (r: Option<string>)
    ensures first.Some? ==> r == first
    ensures first.None? ==> r == second
  {
    if first.Some? then first else second
  }

  /** Every enrollment statistic the query selects, for a super administrator only. */
  function GetGlobalStats(repo: Repository, u: UserContext, q: ReportQuery): (r: Result<seq<EnrollmentStats>, string>)
    ensures r.Success? <==> IsSuperAdmin(u)
    ensures r.Failure? ==> r.error == GlobalDenied
    ensures r.Success? ==> r.value == QueryEnrollmentStats(repo, q)
  {
    if !IsSuperAdmin(u) then Failure(GlobalDenied) else Success(QueryEnrollmentStats(repo, q))
  }

  /** The institution asked for, or else the user's own; an empty id counts as missing. */
  function InstitutionTarget(u: UserContext, target: Option<string>): Option<string>
  {
    Coalesce(target, u.institutionId)
  }

  /** One institution's enrollment statistics. */
  function GetInstitutionStats(repo: Repository, u: UserContext, q: ReportQuery, target: Option<string>)
    : (r: Result<seq<EnrollmentStats>, string>)
    ensures var id := InstitutionTarget(u, target);
            && (!Active(id) ==> r == Failure(InstitutionRequired))
            && (Active(id) && !CanAccessInstitution(u, id.value) ==> r == Failure(InstitutionDenied))
            && (r.Success? <==> Active(id) && CanAccessInstitution(u, id.value))
            && (r.Success? ==> r.value == QueryEnrollmentStats(repo, WithInstitution(q, id.value)))
  {
    var id := InstitutionTarget(u, target);
    if !Active(id) then Failure(InstitutionRequired)
    else if !CanAccessInstitution(u, id.value) then Failure(InstitutionDenied)
    else Success(QueryEnrollmentStats(repo, WithInstitution(q, id.value)))
  }

  /** The program asked for, or else the query's own; an empty id counts as missing. */
  function ProgramTarget(q: ReportQuery, target: Option<string>): Option<string>
  {
    Coalesce(target, q.programId)
  }

  /** One program's enrollment statistics. */
  function GetProgramStats(repo: Repository, u: UserContext, q: ReportQuery, target: Option<string>)
    : (r: Result<seq<EnrollmentStats>, string>)
    ensures var id := ProgramTarget(q, target);
            && (!Active(id) ==> r == Failure(ProgramRequired))
            && (Active(id) && !CanAccessProgram(u, id.value) ==> r == Failure(ProgramDenied))
            && (r.Success? <==> Active(id) && CanAccessProgram(u, id.value))
            && (r.Success? ==> r.value == QueryEnrollmentStats(repo, WithProgram(q, id.value)))
  {
    var id := ProgramTarget(q, target);
    if !Active(id) then Failure(ProgramRequired)
    else if !CanAccessProgram(u, id.value) then Failure(ProgramDenied)
    else Success(QueryEnrollmentStats(repo, WithProgram(q, id.value)))
  }

  /** One program's key figures. */
  function GetProgramKpis(repo: Repository, u: UserContext, q: ReportQuery, target: Option<string>)
    : (r: Result<seq<ProgramStats>, string>)
    ensures var id := ProgramTarget(q, target);
            && (!Active(id) ==> r == Failure(ProgramRequired))
            && (Active(id) && !CanAccessProgram(u, id.value) ==> r == Failure(ProgramDenied))
            && (r.Success? <==> Active(id) && CanAccessProgram(u, id.value))
            && (r.Success? ==> r.value == QueryProgramStats(repo, WithProgram(q, id.value)))
  {
    var id := ProgramTarget(q, target);
    if !Active(id) then Failure(ProgramRequired)
    else if !CanAccessProgram(u, id.value) then Failure(ProgramDenied)
    else Success(QueryProgramStats(repo, WithProgram(q, id.value)))
  }

  /**
   * An institution administrator who is not a super administrator only ever
   * sees rows of their own institution, whatever institution they ask for.
   */
  lemma InstitutionAdminSeesOwnInstitution(repo: Repository, u: UserContext, q: ReportQuery, target: Option<string>)
    requires !IsSuperAdmin(u)
    requires GetInstitutionStats(repo, u, q, target).Success?
    ensures u.institutionId.Some?
    ensures forall s :: s in GetInstitutionStats(repo, u, q, target).value ==> s.institutionId == u.institutionId.value
  {
    var id := InstitutionTarget(u, target);
    ScopedToInstitution(repo, q, id.value);
  }

  /**
   * A user who is not a super administrator only sees rows of a program on
   * their own list, and only rows of the one program they asked for.
   */
  lemma ProgramReportsStayInScope(repo: Repository, u: UserContext, q: ReportQuery, target: Option<string>)
    requires !IsSuperAdmin(u)
    requires GetProgramStats(repo, u, q, target).Success?
    ensures var id := ProgramTarget(q, target).value;
            && id in u.programIds
            && forall s :: s in GetProgramStats(repo, u, q, target).value ==> s.programId == id
  {
    var id := ProgramTarget(q, target);
    ScopedToProgram(repo, q, id.value);
  }

  /** An explicit empty target does not fall back: it is refused as missing. */
  lemma EmptyTargetIsMissing(repo: Repository, u: UserContext, q: ReportQuery)
    ensures GetInstitutionStats(repo, u, q, Some("")) == Failure(InstitutionRequired)
    ensures GetProgramStats(repo, u, q, Some("")) == Failure(ProgramRequired)
    ensures GetProgramKpis(repo, u, q, Some("")) == Failure(ProgramRequired)
  {
  }
}

=== FILE: reporting_stats.dfy ===
/**
 * The reporting service's statistics records. Dates are integer timestamps;
 * counts are natural numbers and rates are exact reals.
 */
module ReportingStats {
  datatype EnrollmentStats = EnrollmentStats(
    institutionId: string,
    programId: string,
    periodStart: int,
    periodEnd: int,
    countPreinscription: nat,
    countDossierSoumis: nat,
    countEnCoursValidation: nat,
    countAccepte: nat,
    countRefuse: nat,
    countInscrit: nat)

  datatype ProgramStats = ProgramStats(
    institutionId: string,
    programId: string,
    academicYear: string,
    totalApplications: nat,
    conversionRateToInscrit: real,
    acceptanceRate: real)

  /** All applications of the period, whatever their stage. */
  function TotalApplications(s: EnrollmentStats): (total: nat)
    ensures s.countPreinscription <= total && s.countDossierSoumis <= total
    ensures s.countEnCoursValidation <= total && s.countAccepte <= total
    ensures s.countRefuse <= total && s.countInscrit <= total
    ensures total == 0 <==>
              s.countPreinscription == 0 && s.countDossierSoumis == 0 && s.countEnCoursValidation == 0
              && s.countAccepte == 0 && s.countRefuse == 0 && s.countInscrit == 0
  {
    s.countPreinscription + s.countDossierSoumis + s.countEnCoursValidation
    + s.countAccepte + s.countRefuse + s.countInscrit
  }

  /** The share of applications that ended enrolled; zero when there are none. */
  function ConversionRateToInscrit(s: EnrollmentStats): (rate: real)
    ensures 0.0 <= rate <= 1.0
    ensures TotalApplications(s) == 0 ==> rate == 0.0
    ensures TotalApplications(s) > 0 ==> rate * (TotalApplications(s) as real) == s.countInscrit as real
    ensures rate == 1.0 <==> TotalApplications(s) > 0 && s.countInscrit == TotalApplications(s)
  {
    var total := TotalApplications(s);
    if total > 0 then RatioFacts(s.countInscrit, total); (s.countInscrit as real) / (total as real) else 0.0
  }

  /** The share of decisions that were acceptances; zero when nothing was decided. */
  function AcceptanceRate(s: EnrollmentStats): (rate: real)
    ensures 0.0 <= rate <= 1.0
    ensures s.countAccepte + s.countRefuse == 0 ==> rate == 0.0
    ensures s.countAccepte + s.countRefuse > 0 ==>
              rate * ((s.countAccepte + s.countRefuse) as real) == s.countAccepte as real
    ensures rate == 1.0 <==> s.countAccepte > 0 && s.countRefuse == 0
  {
    var decisions := s.countAccepte + s.countRefuse;
    if decisions > 0 then RatioFacts(s.countAccepte, decisions); (s.countAccepte as real) / (decisions as real) else 0.0
  }

  /** A part over a positive whole is a fraction in [0, 1] that is 1 only for the whole itself. */
  lemma RatioFacts(part: nat, whole: nat)
    requires 0 < whole && part <= whole
    ensures var q := (part as real) / (whole as real);
            && 0.0 <= q <= 1.0
            && q * (whole as real) == part as real
            && (q == 1.0 <==> part == whole)
  {
  }
}

=== FILE: scheduler_job.dfy ===
/**
 * The scheduler's close-registrations job. It fetches the programs whose
 * registrations should close, then, unless it is a dry run, asks for each
 * program in turn that its applications be auto-expired, that its
 * registrations be closed, and that a notification be sent. A failing call
 * adds one error message and the job moves on.
 *
 * The three remote services are not modelled: the fetch outcome is a
 * parameter, and `outcome(i)` is what the three calls for the i-th program
 * return. Every call the job issues is recorded, in order, in a call log.
 */
module CloseRegistrationsJob {
  import opened Wrappers

  datatype ProgramToClose = ProgramToClose(id: string, institutionId: string, registrationCloseDate: string)

  datatype AutoExpireResult = AutoExpireResult(programId: string, affectedApplications: int)

  /** Each field is optional; an absent one takes its default. */
  datatype Config = Config(referenceDate: Option<string>, limit: Option<int>, dryRun: Option<bool>)

  datatype Detail = Detail(program: ProgramToClose, autoExpire: Option<AutoExpireResult>)

  datatype JobResult = JobResult(
    dryRun: bool,
    referenceDate: string,
    processedPrograms: nat,
    processedApplications: int,
    details: seq<Detail>,
    errors: seq<string>)

  datatype Call =
    | FetchPrograms(referenceDate: string, limit: int)
    | AutoExpire(programId: string, referenceDate: string)
    | CloseRegistrations(programId: string, referenceDate: string)
    | Notify(programId: string, institutionId: string, referenceDate: string)

  /** What the three per-program calls return; a failure carries the error's message. */
  datatype ProgramOutcome = ProgramOutcome(
    autoExpire: Result<AutoExpireResult, string>,
    close: Result<(), string>,
    notify: Result<(), string>)

  const DefaultLimit: int := 100

  function FetchError(message: string): string
  {
    "Failed to fetch programs to close: " + message
  }

  function AutoExpireError(programId: string, message: string): string
  {
    "Failed to auto-expire applications for program " + programId + ": " + message
  }

  function CloseError(programId: string, message: string): string
  {
    "Failed to close registrations for program " + programId + ": " + message
  }

  function NotifyError(programId: string, message: string): string
  {
    "Failed to send notification for program " + programId + ": " + message
  }

  /** The errors one program contributes, in the order its calls are made. */
  function ProgramErrors(p: ProgramToClose, o: ProgramOutcome): (errs: seq<string>)
    ensures |errs| <= 3
    ensures errs == [] <==> o.autoExpire.Success? && o.close.Success? && o.notify.Success?
  {
    (if o.autoExpire.Failure? then [AutoExpireError(p.id, o.autoExpire.error)] else [])
    + (if o.close.Failure? then [CloseError(p.id, o.close.error)] else [])
    + (if o.notify.Failure? then [NotifyError(p.id, o.notify.error)] else [])
  }

  /** The calls made for one program, in order. */
  function ProgramCalls(p: ProgramToClose, referenceDate: string): seq<Call>
  {
    [AutoExpire(p.id, referenceDate), CloseRegistrations(p.id, referenceDate),
     Notify(p.id, p.institutionId, referenceDate)]
  }

  function Affected(o: ProgramOutcome): int
  {
    if o.autoExpire.Success? then o.autoExpire.value.affectedApplications else 0
  }

  function ExpiredEntry(o: ProgramOutcome): Option<AutoExpireResult>
  {
    if o.autoExpire.Success? then Some(o.autoExpire.value) else None
  }

  /** The errors of the first `n` programs of a real run. */
  ghost function ErrorsUpTo(ps: seq<ProgramToClose>, outcome: nat -> ProgramOutcome, n: nat): seq<string>
    requires n <= |ps|
  {
    if n == 0 then [] else ErrorsUpTo(ps, outcome, n - 1) + ProgramErrors(ps[n - 1], outcome(n - 1))
  }

  /** The calls for the first `n` programs of a real run. */
  ghost function CallsUpTo(ps: seq<ProgramToClose>, referenceDate: string, n: nat): seq<Call>
    requires n <= |ps|
  {
    if n == 0 then [] else CallsUpTo(ps, referenceDate, n - 1) + ProgramCalls(ps[n - 1], referenceDate)
  }

  /** The applications expired for the first `n` programs of a real run. */
  ghost function AffectedUpTo(outcome: nat -> ProgramOutcome, n: nat): int
  {
    if n == 0 then 0 else AffectedUpTo(outcome, n - 1) + Affected(outcome(n - 1))
  }

  method Run(config: Config, now: string, fetched: Result<seq<ProgramToClose>, string>,
             outcome: nat -> ProgramOutcome)
    returns (r: JobResult, calls: seq<Call>)
    ensures r.referenceDate == config.referenceDate.GetOr(now)
    ensures r.dryRun == config.dryRun.GetOr(false)
    // The fetch is always the first call, with the defaulted date and limit.
    ensures |calls| >= 1 && calls[0] == FetchPrograms(r.referenceDate, config.limit.GetOr(DefaultLimit))
    // A failed fetch ends the run with one error and nothing processed.
    ensures fetched.Failure? ==>
              && r.processedPrograms == 0 && r.processedApplications == 0
              && r.details == [] && r.errors == [FetchError(fetched.error)]
              && calls == [calls[0]]
    ensures fetched.Success? ==>
              var ps := fetched.value;
              && r.processedPrograms == |ps|
              && |r.details| == |ps|
              && (forall i :: 0 <= i < |ps| ==> r.details[i].program == ps[i])
              // A dry run touches nothing beyond the fetch.
              && (r.dryRun ==>
                    && r.errors == [] && r.processedApplications == 0 && calls == [calls[0]]
                    && forall i :: 0 <= i < |ps| ==> r.details[i].autoExpire.None?)
              // A real run makes the three calls for every program and keeps going after failures.
              && (!r.dryRun ==>
                    && (forall i :: 0 <= i < |ps| ==> r.details[i].autoExpire == ExpiredEntry(outcome(i)))
                    && r.processedApplications == AffectedUpTo(outcome, |ps|)
                    && r.errors == ErrorsUpTo(ps, outcome, |ps|)
                    && calls == [calls[0]] + CallsUpTo(ps, r.referenceDate, |ps|))
  {
    var referenceDate := config.referenceDate.GetOr(now);
    var limit := config.limit.GetOr(DefaultLimit);
    var dryRun := config.dryRun.GetOr(false);
    calls := [FetchPrograms(referenceDate, limit)];
    if fetched.Failure? {
      r := JobResult(dryRun, referenceDate, 0, 0, [], [FetchError(fetched.error)]);
      return;
    }
    var programs := fetched.value;
    if dryRun {
      r := JobResult(dryRun, referenceDate, |programs|, 0, DryRunDetails(programs), []);
      return;
    }
    var errors: seq<string> := [];
    var details: seq<Detail> := [];
    var processed := 0;
    var i := 0;
    while i < |programs|
      invariant 0 <= i <= |programs|
      invariant |details| == i
      invariant forall j :: 0 <= j < i ==> details[j] == Detail(programs[j], ExpiredEntry(outcome(j)))
      invariant processed == AffectedUpTo(outcome, i)
      invariant errors == ErrorsUpTo(programs, outcome, i)
      invariant calls == [FetchPrograms(referenceDate, limit)] + CallsUpTo(programs, referenceDate, i)
    {
      var entry, errs, cs := RunProgram(programs[i], outcome(i), referenceDate);
      calls := calls + cs;
      errors := errors + errs;
      if entry.autoExpire.Some? {
        processed := processed + entry.autoExpire.value.affectedApplications;
      }
      details := details + [entry];
      i := i + 1;
    }
    r := JobResult(dryRun, referenceDate, |programs|, processed, details, errors);
  }

  /** A dry run only lists the programs. */
  function DryRunDetails(ps: seq<ProgramToClose>): (ds: seq<Detail>)
    ensures |ds| == |ps|
    ensures forall i :: 0 <= i < |ps| ==> ds[i] == Detail(ps[i], None)
  {
    seq(|ps|, i requires 0 <= i < |ps| => Detail(ps[i], None))
  }

  /** The three calls for one program of a real run; each failure adds its error and the next call is still made. */
  method RunProgram(program: ProgramToClose, o: ProgramOutcome, referenceDate: string)
    returns (entry: Detail, errors: seq<string>, calls: seq<Call>)
    ensures entry == Detail(program, ExpiredEntry(o))
    ensures entry.autoExpire.Some? <==> o.autoExpire.Success?
    ensures errors == ProgramErrors(program, o)
    ensures calls == ProgramCalls(program, referenceDate)
  {
    entry := Detail(program, None);
    errors := [];
    calls := [AutoExpire(program.id, referenceDate)];
    if o.autoExpire.Success? {
      entry := entry.(autoExpire := Some(o.autoExpire.value));
    } else {
      errors := errors + [AutoExpireError(program.id, o.autoExpire.error)];
    }
    calls := calls + [CloseRegistrations(program.id, referenceDate)];
    if o.close.Failure? {
      errors := errors + [CloseError(program.id, o.close.error)];
    }
    calls := calls + [Notify(program.id, program.institutionId, referenceDate)];
    if o.notify.Failure? {
      errors := errors + [NotifyError(program.id, o.notify.error)];
    }
  }

  /** A real run reports at most three errors per program. */
  lemma {:induction false} ErrorsBounded(ps: seq<ProgramToClose>, outcome: nat -> ProgramOutcome, n: nat)
    requires n <= |ps|
    ensures |ErrorsUpTo(ps, outcome, n)| <= 3 * n
  {
    if n > 0 {
      ErrorsBounded(ps, outcome, n - 1);
    }
  }

  /** A real run reports no error exactly when every call of every program succeeds. */
  lemma {:induction false} NoErrorsIffAllSucceed(ps: seq<ProgramToClose>, outcome: nat -> ProgramOutcome, n: nat)
    requires n <= |ps|
    ensures ErrorsUpTo(ps, outcome, n) == [] <==>
              forall i :: 0 <= i < n ==> ProgramErrors(ps[i], outcome(i)) == []
  {
    if n > 0 {
      NoErrorsIffAllSucceed(ps, outcome, n - 1);
      assert ErrorsUpTo(ps, outcome, n) == ErrorsUpTo(ps, outcome, n - 1) + ProgramErrors(ps[n - 1], outcome(n - 1));
    }
  }

  /** A real run makes exactly three calls per program, and the k-th program's
      calls sit at positions 3k .. 3k+2 after the fetch, in the order
      auto-expire, close, notify. */
  lemma {:induction false} CallsPerProgram(ps: seq<ProgramToClose>, referenceDate: string, n: nat)
    requires n <= |ps|
    ensures |CallsUpTo(ps, referenceDate, n)| == 3 * n
    ensures forall k :: 0 <= k < n ==>
              CallsUpTo(ps, referenceDate, n)[3 * k..3 * k + 3] == ProgramCalls(ps[k], referenceDate)
  {
    if n > 0 {
      CallsPerProgram(ps, referenceDate, n - 1);
      var prev := CallsUpTo(ps, referenceDate, n - 1);
      var all := CallsUpTo(ps, referenceDate, n);
      assert all == prev + ProgramCalls(ps[n - 1], referenceDate);
      forall k | 0 <= k < n
        ensures all[3 * k..3 * k + 3] == ProgramCalls(ps[k], referenceDate)
      {
        if k < n - 1 {
          assert all[3 * k..3 * k + 3] == prev[3 * k..3 * k + 3];
        } else {
          assert all[3 * k..3 * k + 3] == ProgramCalls(ps[k], referenceDate);
        }
      }
    }
  }
}

=== FILE: subsequence.dfy ===
/** Order-preserving selection, shared by every filter in the model. */
module Subsequences {

  /** `r` is obtained from `s` by deleting elements, keeping the rest in order. */
  predicate IsSubsequence<T(==)>(r: seq<T>, s: seq<T>)
    decreases |s|
  {
    if |s| == 0 then |r| == 0
    else (|r| > 0 && r[0] == s[0] && IsSubsequence(r[1..], s[1..])) || IsSubsequence(r, s[1..])
  }

  /** A subsequence of a sequence's tail is a subsequence of the sequence. */
  lemma SubsequenceOfTail<T>(r: seq<T>, s: seq<T>)
    requires |s| > 0 && IsSubsequence(r, s[1..])
    ensures IsSubsequence(r, s)
  {
  }

  /** A non-empty sequence's multiset is its head's plus its tail's. */
  lemma MultisetOfCons<T>(s: seq<T>)
    requires |s| > 0
    ensures multiset(s) == multiset{s[0]} + multiset(s[1..])
  {
    assert s == [s[0]] + s[1..];
  }
}

=== FILE: transition_table.dfy ===
/**
 * A lifecycle described as an explicit adjacency table: for each source
 * state, the list of states it may move to. A state without an entry has
 * no outgoing transitions. The table, the initial state and the set of
 * decision-worthy targets together make a `Lifecycle`, so one orchestrator
 * can serve several state vocabularies.
 */
module TransitionTable {
  import opened Wrappers

  type Table<S(==)> = map<S, seq<S>>

  /** A lifecycle configuration: the legal edges, the state a new record
      starts in, and the targets for which a decision record is written. */
  datatype Lifecycle<S(==)> = Lifecycle(table: Table<S>, initial: S, decisionWorthy: set<S>)

  /** The linear scan over an allowed-target list. */
  function Contains<S(==)>(xs: seq<S>, x: S): (found: bool)
    ensures found <==> x in xs
  {
    if |xs| == 0 then false
    else if xs[0] == x then true
    else Contains(xs[1..], x)
  }

  /** The table entry for `s`; `None` stands for the nil slice a missing key yields. */
  function Lookup<S(==)>(table: Table<S>, s: S): Option<seq<S>>
  {
    if s in table then Some(table[s]) else None
  }

  /** Whether `s` may move to `t`: false when `s` has no entry, otherwise
      whether `t` occurs in the entry. */
  function CanTransitionTo<S(==)>(table: Table<S>, s: S, t: S): (ok: bool)
    ensures ok <==> s in table && t in table[s]
  {
    match Lookup(table, s)
    case None => false
    case Some(allowed) => Contains(allowed, t)
  }

  /** Folds a sequence of (old, new) edges starting at `start`. The result is
      the state reached when every edge leaves the state the previous one
      reached and is legal, and `None` as soon as one is not. */
  function Replay<S(==)>(table: Table<S>, start: S, edges: seq<(S, S)>): Option<S>
    decreases |edges|
  {
    if |edges| == 0 then Some(start)
    else if edges[0].0 == start && CanTransitionTo(table, start, edges[0].1) then
      Replay(table, edges[0].1, edges[1..])
    else None
  }

  /** Replaying a trail extended by one edge extends the replayed walk by that edge. */
  lemma {:induction false} ReplaySnoc<S>(table: Table<S>, start: S, edges: seq<(S, S)>, e: (S, S))
    ensures Replay(table, start, edges + [e]) ==
              match Replay(table, start, edges)
              case None => None
              case Some(x) => if e.0 == x && CanTransitionTo(table, x, e.1) then Some(e.1) else None
    decreases |edges|
  {
    if |edges| == 0 {
      assert edges + [e] == [e];
      assert [e][1..] == [];
    } else {
      assert (edges + [e])[0] == edges[0];
      assert (edges + [e])[1..] == edges[1..] + [e];
      if edges[0].0 == start && CanTransitionTo(table, start, edges[0].1) {
        ReplaySnoc(table, edges[0].1, edges[1..], e);
      }
    }
  }
}

=== FILE: wrappers.dfy ===
/** Failure-carrying datatypes shared by every component of the model. */
module Wrappers {

  /** A value that may be absent: a Go nil pointer, a PHP null, a TypeScript `undefined`. */
  datatype Option<+T> = None | Some(value: T) {

    /** Returns the value, or `default` when absent. */
    function GetOr(default: T): T {
      match this
      case Some(v) => v
      case None => default
    }
  }

  /** The outcome of an operation that either succeeds with a value or reports an error. */
  datatype Result<+R, +E> = Success(value: R) | Failure(error: E) {

    predicate IsFailure() {
      Failure?
    }
  }
}
